=== FILE: README.md ===
# Ball-physics multiplayer client: a Dafny model

This project models the decision logic of `main.js`, a single-file browser
client. Each player rolls their own ball around a square painted floor.
Players in the same room exchange state snapshots over a peer-to-peer relay.
Each client shows remote balls by dead reckoning and smoothing toward those
snapshots.

The model covers these parts:

- **Join parameters** (`JoinParams`): the player-name and room sanitisers, and
  the hue hash that colours a remote ball.
- **The local ball's physics step** (`Physics`): dt clamp, key input direction,
  acceleration, planar speed clamp, damping, gravity, integration, and the
  floor and wall clamps.
- **The state payload** (`Protocol`): what `broadcastState` sends, and how the
  receive handler reads it back with JavaScript `||` defaults.
- **The peer registry** (`Peers`): the receive handler, the leave handler,
  dead-reckoning age and prediction, smoothing, and eviction after 30 s.
- **Painting** (`Paint`): mapping a world point to the paint texture, and the
  paint message.
- **The session** (`Session`): the connection status set by `initRealtime`,
  the two send throttles, greeting a joining peer, and one whole animation
  frame.

Support modules:

- `JsValues` models untyped JSON fields as `Option` and JavaScript truthiness:
  `x || d` takes `d` when `x` is missing, `0` or `""`.
- `Vectors` holds the small vector and quaternion algebra.

### Idealisations

- Numbers are exact `real`s, not IEEE-754 doubles.
- `Math.sqrt` is a parameter `sqrt: real -> real`. The only requirement on it
  (`IsSqrt`) is that it returns the non-negative square root.
- Clocks are parameters:
  - `wallNow` stands for `Date.now()`. It is used for the sender timestamp and
    the prediction age.
  - `monoNow` stands for `performance.now()`. It is used for `lastSeen` and
    staleness.
- The remote smoothing factor `1 - exp(-18 dt)` is a parameter `alpha`.
- The rolled orientation is a parameter `rolled`.
- The transport's send functions are modelled only by whether they exist. A
  send is the message it would carry.

### Behaviour worth knowing

- There are no platforms, no jump and no grounded flag.
- The floor bounces: vertical speed above 0.2 becomes `-vy * 0.45`, and only
  slower contacts stop the ball.
- Gravity is -24 and the time step is capped at 0.033 s.
- Peers are evicted after 30 s.
- There is no `hello` message or heartbeat. A joining peer instead gets one
  state snapshot addressed to it alone.
- The paint payload is `{x, z, m}`, with no sender id.
- Snapshots are applied in arrival order, with no timestamp guard
  (`Peers.LastArrivalWins`).
- A remote name of only white space shows the default `"Player-" + id`
  uncut, so it can be longer than the 18 characters any other name is cut
  to (`Peers.BlankNameSkipsCut`).

## Model

| member | source | states |
|---|---|---|
| JoinParams.Trim | main.js:26 | `trim()` removes exactly the leading and trailing white-space runs (the full ECMAScript white-space and line-terminator set); the result is empty iff the input is all white space, and otherwise starts and ends with a non-space |
| JoinParams.TrimIdempotent | main.js:26 | trimming twice equals trimming once |
| JoinParams.SanitizeName | main.js:25-28 | an all-white-space (or empty) name gives the fallback; otherwise the result is the trimmed name if it has at most 18 characters, else its first 18 characters, so it is non-empty, at most 18 long, a prefix of the trimmed name, and does not start with white space |
| JoinParams.SanitizeNameKeepsClean | main.js:25-28 | a name of 1 to 18 characters with no white space at either end is returned unchanged, whatever the fallback |
| JoinParams.SanitizeNameCutCanEndInSpace | main.js:25-28 | sanitising is not idempotent: the 18-character cut can end in a space, which a second sanitising (as a receiving peer does) removes |
| JoinParams.KeepRoomChars | main.js:31 | the `[^a-z0-9_-]` filter yields only room characters and is no longer than its input |
| JoinParams.KeepRoomCharsCounts | main.js:31 | the filter keeps each room character exactly as many times as it occurs and drops every other character |
| JoinParams.KeepRoomCharsAppend | main.js:31 | the filter keeps the order: filtering a concatenation is concatenating the filtered parts |
| JoinParams.KeepRoomCharsSingle | main.js:31 | a single character survives the filter exactly when it is a room character |
| JoinParams.KeepRoomCharsKeepsValid | main.js:31 | a string of room characters passes the filter unchanged |
| JoinParams.SanitizeRoom | main.js:30-33 | the result is always 1 to 24 room characters; it is "lobby" when lower-casing and filtering leave nothing; otherwise it is that filtered string cut to 24 characters |
| JoinParams.SanitizeRoomFixpoint | main.js:30-33 | a room id is left unchanged exactly when it is already 1 to 24 room characters |
| JoinParams.SanitizeRoomIdempotent | main.js:30-33 | sanitising a room id twice equals sanitising it once |
| JoinParams.HueFromId | main.js:17-19 | the hue loop's result is in [0, 360) and equals the unreduced polynomial hash `sum code(id[i]) * 31^(n-1-i)` mod 360, so reducing at every step loses nothing |
| JoinParams.HueStep | main.js:19 | reducing the accumulator mod 360 before `h*31 + code` does not change the result mod 360 |
| Physics.ClampDt | main.js:484 | the step is at most 0.033 s and at most the frame delta, and is one of the two |
| Physics.KeyAxisSigns | main.js:486-490 | one key axis is positive exactly when only the positive key is held, negative exactly when only the negative key is held, and zero when both or neither are held |
| Physics.InputDirUnitOrZero | main.js:486-491 | the input direction is zero when opposite keys cancel on both axes and a unit vector otherwise, and each component's sign follows the keys (W is -z, S is +z, A is -x, D is +x); with one key of each axis held, the two components have equal magnitude |
| Physics.NormaliseUnitOrZero | main.js:491 | normalising leaves a zero vector alone and gives any other vector length 1, parallel to the input and keeping the sign of each component |
| Physics.ClampSpeed | main.js:496-502 | a planar velocity within 7.5 is unchanged; a faster one is rescaled to length exactly 7.5 in the same direction (parallel, no component changes sign) |
| Physics.DampFactor | main.js:504 | the damping factor is `1 - 4.8 dt` or 0, never negative, at least `1 - 4.8 dt` (so exactly `1 - 4.8 dt` while that is non-negative), and at most 1 for a non-negative step |
| Physics.Integrate | main.js:493-509 | free flight keeps the planar speed at most 7.5 for a non-negative step, adds `gravity * dt` to the vertical velocity, and moves the position by the new velocity times `dt`; the new planar velocity is the push, clamp and damp of `Physics.FlightPlanar` |
| Physics.FlightVelocity | main.js:493-507 | the new vertical velocity is the old one plus `gravity * dt`, and the planar part is the push, clamp and damp of `Physics.FlightPlanar` |
| Physics.Push | main.js:493-494 | each planar component grows by the input direction's component times `18 dt`; with the keys cancelling on both axes the velocity is unchanged |
| Physics.FlightPlanar | main.js:493-506 | the planar speed after the push, the speed clamp and damping is at most 7.5 for a non-negative step; a pushed velocity within 7.5 is only scaled by the damping factor, and a faster one leaves with speed exactly 7.5 times the damping factor |
| Physics.FlightIsClampDamp | main.js:493-506 | the planar flight velocity is the speed clamp of the pushed velocity, multiplied by the damping factor |
| Physics.ClampDampKeepsDirection | main.js:496-506 | clamping and then damping a velocity keeps its direction: the result is parallel to it and no component changes sign |
| Physics.FlightKeepsPushDirection | main.js:493-506 | the flight velocity points the way the pushed velocity does: parallel, with no component of opposite sign |
| Physics.DampKeepsDirection | main.js:504-506 | multiplying by a non-negative damping factor keeps a direction |
| Physics.NoKeysOnlyDamps | main.js:486-506 | with no key held and the velocity within 7.5, one flight step only multiplies the planar velocity by the damping factor |
| Physics.DampShrinks | main.js:504-506 | damping by `f` multiplies the squared planar speed by `f²`, so a factor in [0, 1] keeps the 7.5 limit |
| Physics.FloorClamp | main.js:511-514 | after the floor contact the ball is at least at `radius`; above the floor nothing changes; below it the ball is put at `radius` and vertical speed `abs(vy) <= 0.2` becomes 0 while a faster one becomes `-vy * 0.45`, pointing up after a fall; speed never grows |
| Physics.WallClamp | main.js:516-531 | after a wall contact the coordinate lies in `[-(7 - 0.45), 7 - 0.45]`; inside, nothing changes; past the + wall the velocity becomes `<= 0`, past the - wall `>= 0`, in both cases with magnitude `0.6 * abs(v)` |
| Physics.Collide | main.js:511-531 | the y axis follows the floor rule and the x and z axes follow the wall rule, each on its own; the result is in the arena, a body already in it is unchanged, and no velocity component's magnitude grows |
| Physics.CollideIdempotent | main.js:511-531 | colliding twice is colliding once |
| Physics.CollideKeepsSpeedBound | main.js:511-531 | the clamps never increase the squared planar speed |
| Physics.Step | main.js:484-531 | after any frame, whatever the keys and the previous state, the ball is on or above the floor and inside the walls, and for a non-negative frame delta its planar speed is at most 7.5 |
| Physics.StepIsFlyThenCollide | main.js:484-531 | one frame is the flight over the clamped time step followed by the collision, so the exact flight, floor and wall rules are those of a frame |
| Physics.StepFloorContact | main.js:509-514 | when a step from on or above the floor ends below it, the ball lands on the floor with the bounce rule applied to the flight velocity, whose vertical speed was downward |
| Physics.RunStaysSettled | main.js:484-531 | the floor, wall and speed invariants hold after any sequence of frames with non-negative deltas |
| Physics.SpawnSettled | main.js:300-306 | the ball as created, resting at the centre of the floor, satisfies those invariants |
| Physics.CollideScenario | main.js:511-531 | a ball at (1, 0.3, 6.8) with velocity (2, -3, 1) ends at (1, 0.45, 6.55) with velocity (2, 1.35, -0.6) |
| Protocol.Encode | main.js:464-478 | no contract of its own: what the payload carries is stated by the round trip `Protocol.DecodeEncode` and by `Peers.OwnEchoIgnored` |
| Protocol.Decode | main.js:431-434 | every numeric field reads as its value when truthy and as its default otherwise: 0 for `px`, `pz`, the velocity and `qx`, `qy`, `qz`; `radius` for `py`; 1 for `qw`; the receiver's clock for `ts` |
| Protocol.DecodeZeroIsMissing | main.js:431-434 | a field holding 0 decodes exactly like a missing one |
| Protocol.DecodeEncode | main.js:462-481 | decoding the broadcast snapshot gives back the ball's position, velocity, orientation and send time exactly, provided the height, `w` and the time are not 0 |
| Protocol.DecodeEncodeInArena | main.js:462-481 | for a ball in the arena the height condition always holds |
| Protocol.DecodeHalfTurn | main.js:433 | the default of 1 for a falsy `qw` turns the unit half-turn quaternion (1, 0, 0, 0) into (1, 0, 0, 1), whose squared norm is 2 |
| Protocol.DecodeEmpty | main.js:431-434 | a payload with no numeric fields decodes to a ball resting at the centre, not moving, unrotated, stamped with the receiver's clock |
| Peers.DisplayName | main.js:422 | a truthy `n` that is not a string makes the call throw; a non-empty string `n` gives `sanitizeName(n, "Player-" + id)`; a missing or falsy `n` gives the sanitised default name; the name is never empty |
| Peers.BlankNameSkipsCut | main.js:422 | a name made only of white space falls back to the raw `"Player-" + id`, which for an id of more than 11 characters is longer than 18, while a missing name is cut to 18 |
| Peers.Receive | main.js:419-436 | an absent payload, one without a truthy id, the client's own id, or a name that throws leaves the registry unchanged; otherwise the keys become the old keys plus the sender, other entries are unchanged, and the sender's entry has the sanitised name, the decoded pose and time, and `lastSeen` now; a new entry is created with the payload's id and drawn at the spawn point, and an existing one keeps its id and drawn position |
| Peers.WriteTwice | main.js:423-435 | a second snapshot from the same peer overwrites everything the first wrote |
| Peers.ReceiveTwice | main.js:419-436 | receiving the same payload twice is receiving it once, at the later times |
| Peers.LastArrivalWins | main.js:434 | the stored time is the later arrival's, even if it is older |
| Peers.OwnEchoIgnored | main.js:420 | the client's own broadcast, echoed back, changes nothing |
| Peers.Created | main.js:363-391 | a new remote keeps the given id, has the given name or else, when that is empty, the default `"Player-" + id`, rests at the spawn point with no velocity and the identity orientation, is stamped and seen now, and is predicted where it rests |
| Peers.Leave | main.js:407-417 | leaving removes exactly that peer and keeps the others; an unknown peer is a no-op |
| Peers.LeaveAfterReceive | main.js:407-436 | leaving after a receive from the same peer is the same as leaving alone |
| Peers.NoVelocityPredictedAtNetPos | main.js:543 | a payload without velocity fields is predicted at its network position however old it is |
| Peers.Age | main.js:542 | the prediction age is always in [0, 0.35] s; it is the timestamp gap in seconds when that is in range, 0 for a snapshot from the future, and 0.35 once the gap reaches 350 ms |
| Peers.PredictionBounded | main.js:543 | dead reckoning moves the ball at most `0.35 * abs(v)` from the network position along each axis |
| Peers.PredictionHorizon | main.js:542-543 | an old snapshot is carried forward exactly 0.35 s, and a snapshot from the future is not carried at all |
| Peers.Predicted | main.js:543 | no contract of its own: dead reckoning is stated by `Peers.PredictionBounded`, `Peers.PredictionHorizon`, `Peers.PredictionScenario` and `Peers.NoVelocityPredictedAtNetPos` |
| Peers.PredictionScenario | main.js:542-543 | a snapshot at (0.2, 0.45, 0) moving at (1, 0, 0), 100 ms old, is predicted at (0.3, 0.45, 0) |
| Peers.FirstContactScenario | main.js:419-436 | a nameless first payload from an unknown peer creates exactly one entry, named "Player-<id>", holding the decoded snapshot and drawn at the spawn point |
| Peers.DefaultDisplayName | main.js:422 | a nameless payload shows "Player-<id>" when that default is clean |
| Peers.Smooth | main.js:545 | smoothing keeps the same remotes |
| Peers.SmoothApproaches | main.js:540-545 | with a factor in [0, 1], smoothing changes only where a remote is drawn, and moves each coordinate toward the prediction without overshooting, leaving exactly the fraction `1 - alpha` of the gap |
| Peers.Sweep | main.js:548-557 | eviction keeps exactly the remotes heard from within 30 s and leaves them unchanged |
| Peers.Tick | main.js:540-557 | the per-frame pass keeps exactly the remotes with `now - lastSeen <= 30000` and changes nothing about them but where they are drawn, which is where `Peers.Smooth` moves them |
| Peers.ReceivedSurvivesSweep | main.js:419-436 | a peer just heard from survives a later eviction exactly when at most 30 s have passed |
| Paint.Toggle | main.js:316 | pressing P always switches the mode |
| Paint.ToggleTwice | main.js:316 | pressing P twice restores the mode |
| Paint.PaintAtWorld | main.js:349-357 | a dot is painted exactly when both coordinates lie in [-7, 7]; its pixel coordinates lie in [0, 1024] and it has the requested mode |
| Paint.PaintAtWorldMonotone | main.js:349-354 | texture coordinates grow with world coordinates, and the floor's centre maps to the texture's centre |
| Paint.ReceivePaint | main.js:438-441 | an absent payload paints nothing; otherwise a dot is painted exactly when `x or 0` and `z or 0` both lie in [-7, 7], and it erases exactly when `m` is "erase" |
| Paint.MissingCoordinateIsZero | main.js:440 | a missing coordinate paints exactly like a coordinate of 0, on the texture's centre line |
| Paint.ReceiveEncodePaint | main.js:438-441 | a peer paints the same dot as the sender for every point and mode, since a falsy coordinate defaults to 0 and a coordinate of 0 is falsy |
| Paint.UnknownModeDraws | main.js:440 | any mode other than "erase", or none, draws |
| Paint.BallPaintsOnFloor | main.js:564 | the local ball's own paint point is always on the texture, because the walls keep it within 6.55 of the centre |
| Session.Connect | main.js:393-454 | connecting ends online exactly when everything succeeds; both senders are stored together, and they exist unless the failure came before they were stored |
| Session.OfflineMaySend | main.js:398-401 | online implies being able to send, but a failure while registering handlers leaves a client that is offline and still sending |
| Session.Throttle | main.js:565-575 | a throttle fires exactly when a sender exists and the accumulator plus the frame time exceeds 1/20 s; after firing the accumulator is 0, otherwise it is the sum |
| Session.NoBackToBack | main.js:565-575 | with frames capped at 0.033 s, the frame right after a send does not send |
| Session.NeverSendsWithoutSender | main.js:565-575 | without a sender nothing is ever sent over any sequence of frames |
| Session.SendRateBound | main.js:565-575 | over any sequence of frames, the number of sends times 1/20 s plus the final accumulator is at most the elapsed time: at most 20 sends per second |
| Session.SendRateFloor | main.js:565-575 | with a sender and frames of at most 0.033 s, the accumulator stays within 1/20 s and each send accounts for at most 1/20 + 0.033 s of elapsed time |
| Session.BroadcastState | main.js:462-481 | a snapshot is sent exactly when a state sender exists; it is addressed to the target when that is a non-empty string and broadcast otherwise |
| Session.GreetingReadsBack | main.js:403-405 | a joining peer receives the current snapshot addressed to it alone (broadcast if its id is empty), and reads the ball back exactly |
| Session.GreetingRegisters | main.js:403-405 | with a non-empty session id, the greeting is a payload the joining peer's handler accepts: it carries that id, which is not the peer's own, and a string name |
| Session.Frame | main.js:484-575 | one frame moves the ball by one physics step, which keeps it in the arena; runs the per-frame remote pass, which keeps exactly the remotes heard from within 30 s and smooths where they are drawn; always paints the local dot under the moved ball in the current mode; sends paint and state exactly when each throttle fires, resetting that accumulator to 0 and otherwise adding the clamped frame time; and sends the moved ball |
| Session.FramePaintEchoes | main.js:564-569 | a peer receiving a frame's paint message paints the dot the sender painted locally |
| Session.FramesNotBackToBack | main.js:571-575 | two consecutive frames never both send the state |
| Session.OfflineFrameSilent | main.js:449-453 | a client whose connection failed before the senders were stored never sends |

## Left out

- Rendering is not modelled. This covers the Three.js scene, meshes, name sprites, the camera follow, `renderer.render` and the disposal of remote meshes; it is foreign library code.
- The DOM and UI are not modelled: the start screen, the badge text, the 2D fallback, event listeners, `localStorage` and the URL. They are I/O.
- The transport is not modelled: the dynamic import, `joinRoom`, `makeAction` and the unload handler. It is a third-party network library. `Session.Connect` takes the point at which `initRealtime` throws as an input.
- `randomId` is left out because it is nondeterministic. Session ids and names are parameters.
- The rolling rotation (main.js:533-538) and the remote quaternion `slerp` are left out because they are quaternion and transcendental arithmetic. The orientation after rolling is a frame input.
- The exponential smoothing gains (`1 - exp(-k dt)`) are left out. The remote position gain is the parameter `alpha`, and the camera gain is not modelled.
- Paint raster drawing (`arc`, `fill`, the texture colours) is left out, beyond the bounds check and the pixel coordinates.
- IEEE-754 rounding is not modelled; arithmetic is over exact reals.
- Unicode case mapping is not modelled: `toLowerCase` lowers ASCII A–Z only. `trim` uses the full ECMAScript white-space set. Strings are sequences of Unicode scalar values rather than UTF-16 code units, so a surrogate pair counts as one character in the 18- and 24-character cuts. Likewise the hue hash (`JoinParams.HueFromId`) adds one code per character, where `charCodeAt` adds the two UTF-16 code units of a surrogate pair.
- Non-numeric values in numeric payload fields are not modelled. Fields are either missing or numbers.
- The payload's `id` is modelled as a string. A non-string truthy id would be used as is in the template string and the comparison, and on first sight it also reaches `colorFromId` through `createRemoteBall` (main.js:366, 19); an id without `charCodeAt`, such as an array, throws there before `remotes.set` runs, leaving the registry unchanged.
- `sanitizeName(null)` and `sanitizeRoom(null)` are not modelled separately: `(x || "")` makes them the same as the empty string.
- Peers.Smooth: its own contract states only that the keys are kept. What smoothing does to each remote, the move by the fraction `alpha`, is stated by `Peers.SmoothApproaches`.
- Peers.Age, Peers.Predicted: the split between `Date.now()` (the prediction age) and `performance.now()` (staleness) is kept, but the two clocks are independent parameters with no relation assumed.
- Physics.Step: the speed bound is stated only for a non-negative frame delta. `clock.getDelta()` never returns a negative value.

=== FILE: join_params.dfy ===
/** The join parameters: the display name and the room identifier chosen once
    at start-up, and the hue a remote ball is painted with, derived from its
    session id. */
module JoinParams {

  /** The characters `String.prototype.trim` removes: the ECMAScript WhiteSpace
      and LineTerminator code points. */
  predicate IsSpace(c: char) {
    var n := c as int;
    || (9 <= n <= 13)
    || n == 0x20 || n == 0xA0 || n == 0x1680
    || (0x2000 <= n <= 0x200A)
    || n == 0x2028 || n == 0x2029 || n == 0x202F || n == 0x205F
    || n == 0x3000 || n == 0xFEFF
  }

  ghost predicate AllSpace(s: string) {
    forall i :: 0 <= i < |s| ==> IsSpace(s[i])
  }

  /** Number of white-space characters at the start of `s`. */
  function LeadingSpace(s: string): (k: nat)
    ensures k <= |s|
    ensures AllSpace(s[..k])
    ensures k < |s| ==> !IsSpace(s[k])
  {
    if |s| == 0 || !IsSpace(s[0]) then 0
    else
      var k' := LeadingSpace(s[1..]);
      assert s[..k' + 1] == [s[0]] + s[1..][..k'];
      k' + 1
  }

  /** Number of white-space characters at the end of `s`. */
  function TrailingSpace(s: string): (k: nat)
    ensures k <= |s|
    ensures AllSpace(s[|s| - k..])
    ensures k < |s| ==> !IsSpace(s[|s| - k - 1])
  {
    if |s| == 0 || !IsSpace(s[|s| - 1]) then 0
    else
      var init := s[..|s| - 1];
      var k' := TrailingSpace(init);
      assert s[|s| - (k' + 1)..] == init[|init| - k'..] + [s[|s| - 1]];
      k' + 1
  }

  /** `String.prototype.trim`: `r` is `s` with its white-space margins removed,
      and is empty exactly when `s` is all white space. */
  function Trim(s: string): (r: string)
    ensures LeadingSpace(s) + |r| <= |s|
    ensures r == s[LeadingSpace(s)..LeadingSpace(s) + |r|]
    ensures AllSpace(s[LeadingSpace(s) + |r|..])
    ensures r == [] <==> AllSpace(s)
    ensures r != [] ==> !IsSpace(r[0]) && !IsSpace(r[|r| - 1])
  {
    var a := LeadingSpace(s);
    if a == |s| then
      assert s[..a] == s;
      []
    else
      TrailingStopsAtNonSpace(s, a);
      s[a..|s| - TrailingSpace(s)]
  }

  /** The trailing white-space run of `s` ends after any non-space
      character. */
  lemma TrailingStopsAtNonSpace(s: string, i: nat)
    requires i < |s| && !IsSpace(s[i])
    ensures i < |s| - TrailingSpace(s)
  {
  }

  /** Trimming a second time changes nothing. */
  lemma TrimIdempotent(s: string)
    ensures Trim(Trim(s)) == Trim(s)
  {
    var t := Trim(s);
    if t != [] {
      assert LeadingSpace(t) == 0;
      var u := Trim(t);
      assert |u| == |t|;
    }
  }

  const NameMax: nat := 18

  /** The first `n` elements of `s`, or all of `s` if it is shorter
      (`String.prototype.slice(0, n)`). */
  function Take(s: string, n: nat): string {
    if |s| <= n then s else s[..n]
  }

  /** `sanitizeName`: the trimmed name cut to 18 characters, or `fallback`
      when that is empty. */
  function SanitizeName(name: string, fallback: string): (r: string)
    ensures AllSpace(name) ==> r == fallback
    ensures !AllSpace(name) ==> 0 < |r| <= NameMax && !IsSpace(r[0]) && r <= Trim(name)
    ensures !AllSpace(name) && |Trim(name)| <= NameMax ==> r == Trim(name)
    ensures !AllSpace(name) && |Trim(name)| > NameMax ==> |r| == NameMax
  {
    var cut := Take(Trim(name), NameMax);
    if cut == [] then fallback else cut
  }

  /** A name that sanitising leaves as it is. */
  ghost predicate CleanName(s: string) {
    0 < |s| <= NameMax && !IsSpace(s[0]) && !IsSpace(s[|s| - 1])
  }

  /** Sanitising a clean name returns it unchanged, whatever the fallback; a
      clean fallback is therefore stable too. */
  lemma SanitizeNameKeepsClean(name: string, fallback: string)
    requires CleanName(name)
    ensures SanitizeName(name, fallback) == name
  {
    assert LeadingSpace(name) == 0;
    var t := Trim(name);
    assert !AllSpace(name) by { assert !IsSpace(name[0]); }
    assert |t| == |name|;
  }

  /** Sanitising is not idempotent: the 18-character cut can end on a space,
      which a second pass (a peer re-sanitising the received name) trims off. */
  lemma SanitizeNameCutCanEndInSpace()
    ensures SanitizeName("abcdefghijklmnopq rst", "x") == "abcdefghijklmnopq "
    ensures SanitizeName("abcdefghijklmnopq ", "x") == "abcdefghijklmnopq"
  {
    var s := "abcdefghijklmnopq rst";
    TrimNoMargins(s);
    var t := "abcdefghijklmnopq ";
    var u := t[..17];
    TrimNoMargins(u);
    assert t == u + " ";
    TrimOneTrailingSpace(u);
  }

  /** A string that starts and ends with a non-space trims to itself. */
  lemma TrimNoMargins(s: string)
    requires s != [] && !IsSpace(s[0]) && !IsSpace(s[|s| - 1])
    ensures Trim(s) == s
  {
    assert LeadingSpace(s) == 0;
    assert |Trim(s)| == |s|;
  }

  /** One trailing space after a string that trims to itself is trimmed
      away. */
  lemma TrimOneTrailingSpace(u: string)
    requires u != [] && Trim(u) == u
    ensures Trim(u + " ") == u
  {
    var t := u + " ";
    assert t[..|t| - 1] == u;
    assert LeadingSpace(t) == LeadingSpace(u);
    assert LeadingSpace(u) == 0;
  }

  predicate IsRoomChar(c: char) {
    ('a' <= c <= 'z') || ('0' <= c <= '9') || c == '_' || c == '-'
  }

  /** `toLowerCase` on one character, ASCII letters only. */
  function LowerAscii(c: char): char {
    if 'A' <= c <= 'Z' then (c as int + 32) as char else c
  }

  function ToLower(s: string): string {
    seq(|s|, i requires 0 <= i < |s| => LowerAscii(s[i]))
  }

  /** `replace(/[^a-z0-9_-]/g, "")`: drops every character outside the room
      alphabet. */
  function KeepRoomChars(s: string): (r: string)
    ensures |r| <= |s|
    ensures forall i :: 0 <= i < |r| ==> IsRoomChar(r[i])
  {
    if s == [] then []
    else if IsRoomChar(s[0]) then [s[0]] + KeepRoomChars(s[1..])
    else KeepRoomChars(s[1..])
  }

  /** Filtering keeps every room character of the input as often as it
      occurs, and nothing else. */
  lemma {:induction false} KeepRoomCharsCounts(s: string, c: char)
    ensures multiset(KeepRoomChars(s))[c] == if IsRoomChar(c) then multiset(s)[c] else 0
  {
    if s != [] {
      KeepRoomCharsCounts(s[1..], c);
      assert s == [s[0]] + s[1..];
    }
  }

  /** A string made only of room characters passes the filter unchanged. */
  lemma {:induction false} KeepRoomCharsKeepsValid(s: string)
    requires forall i :: 0 <= i < |s| ==> IsRoomChar(s[i])
    ensures KeepRoomChars(s) == s
  {
    if s != [] {
      KeepRoomCharsKeepsValid(s[1..]);
      assert s == [s[0]] + s[1..];
    }
  }

  /** The filter works character by character and keeps the order: a lone
      character survives exactly when it is a room character, and filtering
      a concatenation concatenates the filtered parts. */
  lemma {:induction false} KeepRoomCharsAppend(s: string, t: string)
    ensures KeepRoomChars(s + t) == KeepRoomChars(s) + KeepRoomChars(t)
  {
    if s != [] {
      assert (s + t)[0] == s[0];
      assert (s + t)[1..] == s[1..] + t;
      KeepRoomCharsAppend(s[1..], t);
    } else {
      assert s + t == t;
    }
  }

  lemma KeepRoomCharsSingle(c: char)
    ensures KeepRoomChars([c]) == if IsRoomChar(c) then [c] else []
  {
    assert [c][1..] == [];
  }

  const RoomMax: nat := 24
  const DefaultRoom: string := "lobby"

  ghost predicate ValidRoom(s: string) {
    0 < |s| <= RoomMax && forall i :: 0 <= i < |s| ==> IsRoomChar(s[i])
  }

  /** `sanitizeRoom`: lower-case, keep the room alphabet, cut to 24 characters,
      fall back to "lobby". */
  function SanitizeRoom(room: string): (r: string)
    ensures ValidRoom(r)
    ensures KeepRoomChars(ToLower(room)) == [] ==> r == DefaultRoom
    ensures KeepRoomChars(ToLower(room)) != [] ==>
              r <= KeepRoomChars(ToLower(room))
              && |r| == if |KeepRoomChars(ToLower(room))| <= RoomMax
                        then |KeepRoomChars(ToLower(room))| else RoomMax
  {
    var cut := Take(KeepRoomChars(ToLower(room)), RoomMax);
    if cut == [] then DefaultRoom else cut
  }

  /** A room identifier is left unchanged exactly when it is already valid. */
  lemma SanitizeRoomFixpoint(room: string)
    ensures SanitizeRoom(room) == room <==> ValidRoom(room)
  {
    if ValidRoom(room) {
      assert ToLower(room) == room;
      KeepRoomCharsKeepsValid(room);
    }
  }

  lemma SanitizeRoomIdempotent(room: string)
    ensures SanitizeRoom(SanitizeRoom(room)) == SanitizeRoom(room)
  {
    SanitizeRoomFixpoint(SanitizeRoom(room));
  }

  const HueModulus: int := 360

  /** The polynomial hash sum of code(id[i]) * 31^(|id|-1-i), unreduced. */
  ghost function PolyHash(id: string): nat {
    if id == [] then 0 else PolyHash(id[..|id| - 1]) * 31 + id[|id| - 1] as int
  }

  lemma ModShift(x: int, k: int)
    ensures (x + k * 360) % 360 == x % 360
  {
    var q, r := x / 360, x % 360;
    assert x + k * 360 == (q + k) * 360 + r;
  }

  /** Reducing the accumulator before each step does not change the result. */
  lemma HueStep(a: int, c: int)
    ensures ((a % 360) * 31 + c) % 360 == (a * 31 + c) % 360
  {
    var q := a / 360;
    assert a * 31 + c == (a % 360) * 31 + c + (q * 31) * 360;
    ModShift((a % 360) * 31 + c, q * 31);
  }

  /** The hue loop of `colorFromId`: `h = (h*31 + code) % 360` over the id. */
  method HueFromId(id: string) returns (h: int)
    ensures 0 <= h < HueModulus
    ensures h == PolyHash(id) % HueModulus
  {
    h := 0;
    var i := 0;
    while i < |id|
      invariant 0 <= i <= |id|
      invariant h == PolyHash(id[..i]) % HueModulus
    {
      assert id[..i + 1][..i] == id[..i];
      HueStep(PolyHash(id[..i]), id[i] as int);
      h := (h * 31 + id[i] as int) % HueModulus;
      i := i + 1;
    }
    assert id[..|id|] == id;
  }
}

=== FILE: js_values.dfy ===
/** JavaScript value conventions the client leans on when it reads untyped
    payloads: a field may be missing, and `a || b` yields `b` whenever `a` is
    falsy. */
module JsValues {

  /** A value that may be absent. For a number field, `None` also stands for
      `null` and `NaN`, which JavaScript treats as falsy like a missing field. */
  datatype Option<+T> = None | Some(value: T)

  /** JavaScript truthiness of a number field: absent and `0` are falsy. */
  predicate TruthyNumber(x: Option<real>) {
    x.Some? && x.value != 0.0
  }

  /** JavaScript truthiness of a string field: absent and `""` are falsy. */
  predicate TruthyString(x: Option<string>) {
    x.Some? && x.value != ""
  }

  /** `x || d` on a number field. */
  function OrNumber(x: Option<real>, d: real): real {
    if TruthyNumber(x) then x.value else d
  }

  /** `x || d` on a string field. */
  function OrString(x: Option<string>, d: string): string {
    if TruthyString(x) then x.value else d
  }
}

=== FILE: paint.dfy ===
/** Painting the floor: mapping a world point to the 1024 x 1024 paint
    texture, and the "paint" action's payload. */
module Paint {
  import opened JsValues
  import Physics

  datatype PaintMode = Draw | Erase

  /** Pressing P flips between drawing and erasing. */
  function Toggle(m: PaintMode): (r: PaintMode)
    ensures r != m
  {
    if m == Draw then Erase else Draw
  }

  lemma ToggleTwice(m: PaintMode)
    ensures Toggle(Toggle(m)) == m
  {
  }

  /** The paint texture's width and height in pixels. */
  const CanvasSize: real := 1024.0

  /** One dot painted at pixel `(px, py)`, in the colour of `mode`. */
  datatype Dot = Dot(px: real, py: real, mode: PaintMode)

  /** `paintAtWorld`: the floor point `(x, z)` as texture coordinates
      `u`, `v` in [0, 1], scaled to pixels; no dot when either falls off
      the texture. */
  function PaintAtWorld(x: real, z: real, mode: PaintMode): (d: Option<Dot>)
    ensures d.Some? <==> -Physics.PlaneHalf <= x <= Physics.PlaneHalf && -Physics.PlaneHalf <= z <= Physics.PlaneHalf
    ensures d.Some? ==> 0.0 <= d.value.px <= CanvasSize && 0.0 <= d.value.py <= CanvasSize
    ensures d.Some? ==> d.value.mode == mode
  {
    var u := (x + Physics.PlaneHalf) / (Physics.PlaneHalf * 2.0);
    var v := (z + Physics.PlaneHalf) / (Physics.PlaneHalf * 2.0);
    if u < 0.0 || u > 1.0 || v < 0.0 || v > 1.0 then None
    else Some(Dot(u * CanvasSize, v * CanvasSize, mode))
  }

  /** The texture is laid out along the floor: a point further along x (or z)
      lands further right (or down), and the floor's centre is the texture's
      centre. */
  lemma PaintAtWorldMonotone(x1: real, x2: real, z1: real, z2: real, mode: PaintMode)
    requires PaintAtWorld(x1, z1, mode).Some? && PaintAtWorld(x2, z2, mode).Some?
    ensures x1 <= x2 <==> PaintAtWorld(x1, z1, mode).value.px <= PaintAtWorld(x2, z2, mode).value.px
    ensures z1 <= z2 <==> PaintAtWorld(x1, z1, mode).value.py <= PaintAtWorld(x2, z2, mode).value.py
    ensures PaintAtWorld(0.0, 0.0, mode) == Some(Dot(CanvasSize / 2.0, CanvasSize / 2.0, mode))
  {
  }

  /** The wire name of a mode. */
  function ModeName(m: PaintMode): string {
    if m == Erase then "erase" else "draw"
  }

  /** A received paint payload as untyped JSON. */
  datatype PaintPayload = PaintPayload(x: Option<real>, z: Option<real>, m: Option<string>)

  /** The payload sent for the local ball: `{ x, z, m: paintMode }`. */
  function EncodePaint(x: real, z: real, mode: PaintMode): PaintPayload {
    PaintPayload(Some(x), Some(z), Some(ModeName(mode)))
  }

  /** The paint handler: nothing for an absent payload; otherwise `x || 0`,
      `z || 0`, and erasing exactly when `m` is the string "erase". A dot is
      painted exactly when those coordinates lie on the floor. */
  function ReceivePaint(msg: Option<PaintPayload>): (d: Option<Dot>)
    ensures msg.None? ==> d.None?
    ensures msg.Some? ==>
              (d.Some? <==> -Physics.PlaneHalf <= OrNumber(msg.value.x, 0.0) <= Physics.PlaneHalf
                            && -Physics.PlaneHalf <= OrNumber(msg.value.z, 0.0) <= Physics.PlaneHalf)
    ensures msg.Some? && d.Some? ==> (d.value.mode == Erase <==> msg.value.m == Some("erase"))
  {
    if msg.None? then None
    else
      var p := msg.value;
      PaintAtWorld(OrNumber(p.x, 0.0), OrNumber(p.z, 0.0), if p.m == Some("erase") then Erase else Draw)
  }

  /** A peer paints the same dot the sender painted locally, for every point
      and mode: the `|| 0` defaults cannot misread a coordinate, since their
      default is the value 0 itself. */
  lemma ReceiveEncodePaint(x: real, z: real, mode: PaintMode)
    ensures ReceivePaint(Some(EncodePaint(x, z, mode))) == PaintAtWorld(x, z, mode)
  {
    assert OrNumber(Some(x), 0.0) == x;
    assert OrNumber(Some(z), 0.0) == z;
  }

  /** A missing coordinate paints like a coordinate of 0: on the texture's
      centre line. */
  lemma MissingCoordinateIsZero(x: Option<real>, z: Option<real>, m: Option<string>)
    ensures ReceivePaint(Some(PaintPayload(None, z, m))) == ReceivePaint(Some(PaintPayload(Some(0.0), z, m)))
    ensures ReceivePaint(Some(PaintPayload(x, None, m))) == ReceivePaint(Some(PaintPayload(x, Some(0.0), m)))
    ensures ReceivePaint(Some(PaintPayload(None, z, m))).Some? ==>
              ReceivePaint(Some(PaintPayload(None, z, m))).value.px == CanvasSize / 2.0
    ensures ReceivePaint(Some(PaintPayload(x, None, m))).Some? ==>
              ReceivePaint(Some(PaintPayload(x, None, m))).value.py == CanvasSize / 2.0
  {
  }

  /** A payload with any mode other than "erase", or none, draws. */
  lemma UnknownModeDraws(x: Option<real>, z: Option<real>, m: Option<string>)
    requires m != Some("erase")
    ensures ReceivePaint(Some(PaintPayload(x, z, m))).Some? ==>
              ReceivePaint(Some(PaintPayload(x, z, m))).value.mode == Draw
  {
  }

  /** The cross-check with the physics: the walls keep the ball within 6.55
      of the centre, inside the 7-unit floor, so the local ball's own paint
      point always lands on the texture. */
  lemma BallPaintsOnFloor(b: Physics.Body, mode: PaintMode)
    requires Physics.InArena(b)
    ensures PaintAtWorld(b.pos.x, b.pos.z, mode).Some?
  {
  }
}

=== FILE: peers.dfy ===
/** The registry of remote balls, keyed by the transport's peer id: what the
    state handler, the leave handler and the per-frame pass do to it. */
module Peers {
  import opened JsValues
  import opened Vectors
  import JoinParams
  import Physics
  import Protocol

  /** One remote ball: the id and name it announced, the last network pose
      and its sender time `netTs` (wall clock, ms), when it was last heard
      from `lastSeen` (monotonic clock, ms), and where it is drawn. */
  datatype Remote = Remote(
    id: string, name: string,
    netPos: Vec3, netVel: Vec3, netQuat: Quat,
    netTs: real, lastSeen: real,
    shown: Vec3)

  type Registry = map<string, Remote>

  /** Remotes unheard of for longer than this many milliseconds are dropped. */
  const StaleAfter: real := 30000.0

  /** The dead-reckoning horizon in seconds. */
  const MaxAge: real := 0.35

  /** A payload the handler drops: none at all, no truthy id, or the
      client's own session id echoed back. */
  predicate Ignored(msg: Option<Protocol.Payload>, self: string) {
    msg.None? || !TruthyString(msg.value.id) || msg.value.id.value == self
  }

  /** The fallback name of a peer that sends none. */
  function DefaultName(id: string): string {
    "Player-" + id
  }

  /** `sanitizeName(payload.n || "Player-" + id, "Player-" + id)`. A
      truthy `n` that is not a string has no `trim`, so the call throws:
      `None`. Otherwise the name is never empty, and it is the default name
      whenever `n` is missing or falsy. */
  function DisplayName(p: Protocol.Payload, id: string): (name: Option<string>)
    ensures name.None? <==> p.n == Some(Protocol.NonText(true))
    ensures name.Some? ==> name.value != []
    ensures forall n :: p.n == Some(Protocol.Text(n)) && n != "" ==>
              name == Some(JoinParams.SanitizeName(n, DefaultName(id)))
    ensures !(p.n.Some? && p.n.value.Text? && p.n.value.s != "") && name.Some? ==>
              name.value == JoinParams.SanitizeName(DefaultName(id), DefaultName(id))
  {
    var d := DefaultName(id);
    match p.n
    case Some(Text(n)) => Some(JoinParams.SanitizeName(OrString(Some(n), d), d))
    case Some(NonText(truthy)) => if truthy then None else Some(JoinParams.SanitizeName(d, d))
    case None => Some(JoinParams.SanitizeName(d, d))
  }

  /** A payload the handler writes into the registry: not ignored, and its
      name does not make `sanitizeName` throw. */
  predicate Accepted(msg: Option<Protocol.Payload>, self: string) {
    !Ignored(msg, self) && DisplayName(msg.value, msg.value.id.value).Some?
  }

  /** `createRemoteBall`: a new remote resting at the centre of the floor,
      not moving, unrotated, with a name (the default one when the given
      name is empty), first seen now; until a snapshot arrives it is drawn
      and predicted where it rests. */
  function Created(remoteId: string, remoteName: string, monoNow: real): (r: Remote)
    ensures r.id == remoteId && r.name != []
    ensures remoteName != "" ==> r.name == remoteName
    ensures remoteName == "" ==> r.name == DefaultName(remoteId)
    ensures r.netPos == r.shown == Physics.Spawn.pos
    ensures r.netVel == Origin && r.netQuat == IdentityQuat
    ensures r.netTs == r.lastSeen == monoNow
    ensures forall wallNow :: Predicted(r, wallNow) == r.netPos
  {
    var name := OrString(Some(remoteName), DefaultName(remoteId));
    Remote(remoteId, name, Physics.Spawn.pos, Origin, IdentityQuat, monoNow, monoNow, Physics.Spawn.pos)
  }

  /** The state handler. An ignored payload leaves the registry alone, and
      so does one whose name throws, since the throw comes before the
      registry is touched. Otherwise exactly the sender's entry is written,
      created on first sight (it keeps the id it was created with
      afterwards); it takes the sanitised name, the decoded pose and time,
      and is marked seen now; where it is drawn does not change. */
  function Receive(reg: Registry, msg: Option<Protocol.Payload>, peerId: string, self: string,
                   wallNow: real, monoNow: real): (r: Registry)
    ensures Ignored(msg, self) ==> r == reg
    ensures !Ignored(msg, self) && msg.value.n == Some(Protocol.NonText(true)) ==> r == reg
    ensures Accepted(msg, self) ==>
              && r.Keys == reg.Keys + {peerId}
              && (forall k :: k in reg && k != peerId ==> r[k] == reg[k])
              && r[peerId].id == (if peerId in reg then reg[peerId].id else msg.value.id.value)
              && r[peerId].name == DisplayName(msg.value, msg.value.id.value).value
              && r[peerId].lastSeen == monoNow
              && r[peerId].shown == (if peerId in reg then reg[peerId].shown else Physics.Spawn.pos)
              && Protocol.Snapshot(r[peerId].netPos, r[peerId].netVel, r[peerId].netQuat, r[peerId].netTs)
                 == Protocol.Decode(msg.value, wallNow)
  {
    if Ignored(msg, self) then reg
    else
      var p := msg.value;
      var id := p.id.value;
      match DisplayName(p, id)
      case None => reg
      case Some(name) => Write(reg, peerId, id, name, Protocol.Decode(p, wallNow), monoNow)
  }

  /** Writes one accepted snapshot into the sender's entry, creating it
      first if needed. */
  function Write(reg: Registry, peerId: string, id: string, name: string, s: Protocol.Snapshot,
                 monoNow: real): Registry {
    var remote := if peerId in reg then reg[peerId] else Created(id, name, monoNow);
    reg[peerId := Refresh(remote, name, s, monoNow)]
  }

  /** A second write from the same peer overrides every field the first one
      set. */
  lemma WriteTwice(reg: Registry, peerId: string, id: string, name: string, s: Protocol.Snapshot,
                   monoNow: real, s': Protocol.Snapshot, monoNow': real)
    ensures Write(Write(reg, peerId, id, name, s, monoNow), peerId, id, name, s', monoNow')
            == Write(reg, peerId, id, name, s', monoNow')
  {
  }

  /** The fields a payload writes into an existing remote. */
  function Refresh(rm: Remote, name: string, s: Protocol.Snapshot, monoNow: real): Remote {
    rm.(name := name, netPos := s.pos, netVel := s.vel, netQuat := s.quat, netTs := s.ts, lastSeen := monoNow)
  }

  /** The leave handler: removes the departing peer and nothing else; an
      unknown peer is a no-op. */
  function Leave(reg: Registry, peerId: string): (r: Registry)
    ensures r.Keys == reg.Keys - {peerId}
    ensures forall k :: k in r ==> r[k] == reg[k]
    ensures peerId !in reg ==> r == reg
  {
    if peerId in reg then reg - {peerId} else reg
  }

  /** Receiving the same payload twice from the same peer is receiving it
      once, at the later times. */
  lemma ReceiveTwice(reg: Registry, msg: Option<Protocol.Payload>, peerId: string, self: string,
                     wallNow: real, monoNow: real, wallNow': real, monoNow': real)
    ensures Receive(Receive(reg, msg, peerId, self, wallNow, monoNow), msg, peerId, self, wallNow', monoNow')
            == Receive(reg, msg, peerId, self, wallNow', monoNow')
  {
    if Accepted(msg, self) {
      var p := msg.value;
      WriteTwice(reg, peerId, p.id.value, DisplayName(p, p.id.value).value, Protocol.Decode(p, wallNow), monoNow,
                 Protocol.Decode(p, wallNow'), monoNow');
    }
  }

  /** Snapshots are applied in arrival order, not timestamp order: a late
      payload carrying an older time still overwrites a newer one. */
  lemma LastArrivalWins(reg: Registry, m1: Option<Protocol.Payload>, m2: Option<Protocol.Payload>,
                        peerId: string, self: string, wallNow: real, monoNow: real)
    requires Accepted(m1, self) && Accepted(m2, self)
    ensures var r := Receive(Receive(reg, m1, peerId, self, wallNow, monoNow), m2, peerId, self, wallNow, monoNow);
            r[peerId].netTs == Protocol.Decode(m2.value, wallNow).ts
  {
  }

  /** A peer that leaves leaves no trace of what it sent: leaving after a
      receive is leaving alone. */
  lemma LeaveAfterReceive(reg: Registry, msg: Option<Protocol.Payload>, peerId: string, self: string,
                          wallNow: real, monoNow: real)
    ensures Leave(Receive(reg, msg, peerId, self, wallNow, monoNow), peerId) == Leave(reg, peerId)
  {
    var r := Receive(reg, msg, peerId, self, wallNow, monoNow);
    assert Leave(r, peerId).Keys == Leave(reg, peerId).Keys;
  }

  /** The client never registers itself: a payload carrying its own session
      id, such as its own broadcast echoed back, changes nothing. */
  lemma OwnEchoIgnored(reg: Registry, self: string, name: string, b: Physics.Body, q: Quat,
                       sentAt: real, peerId: string, wallNow: real, monoNow: real)
    ensures Receive(reg, Some(Protocol.Encode(self, name, b, q, sentAt)), peerId, self, wallNow, monoNow) == reg
  {
  }

  /** How far back the sender's snapshot is, in seconds, clamped to
      [0, 0.35]: `min(max((Date.now() - netTs) / 1000, 0), 0.35)`. */
  function Age(netTs: real, wallNow: real): (a: real)
    ensures 0.0 <= a <= MaxAge
    ensures 0.0 <= (wallNow - netTs) / 1000.0 <= MaxAge ==> a == (wallNow - netTs) / 1000.0
    ensures wallNow <= netTs ==> a == 0.0
    ensures wallNow - netTs >= MaxAge * 1000.0 ==> a == MaxAge
  {
    Min(Max((wallNow - netTs) / 1000.0, 0.0), MaxAge)
  }

  /** The dead-reckoned position: the network position carried forward by
      the network velocity over the clamped age. */
  function Predicted(rm: Remote, wallNow: real): Vec3 {
    AddScaled(rm.netPos, rm.netVel, Age(rm.netTs, wallNow))
  }

  /** Dead reckoning moves the ball at most 0.35 s worth of its velocity
      from the network position, along each axis. */
  lemma PredictionBounded(rm: Remote, wallNow: real)
    ensures Abs(Predicted(rm, wallNow).x - rm.netPos.x) <= MaxAge * Abs(rm.netVel.x)
    ensures Abs(Predicted(rm, wallNow).y - rm.netPos.y) <= MaxAge * Abs(rm.netVel.y)
    ensures Abs(Predicted(rm, wallNow).z - rm.netPos.z) <= MaxAge * Abs(rm.netVel.z)
  {
    var a := Age(rm.netTs, wallNow);
    ScaleBounded(rm.netVel.x, a);
    ScaleBounded(rm.netVel.y, a);
    ScaleBounded(rm.netVel.z, a);
  }

  lemma ScaleBounded(v: real, a: real)
    requires 0.0 <= a <= MaxAge
    ensures Abs(v * a) <= MaxAge * Abs(v)
  {
    if v >= 0.0 {
      assert v * a <= v * MaxAge;
    } else {
      assert (-v) * a <= (-v) * MaxAge;
    }
  }

  /** The drawing pass: each remote's drawn position moves the fraction
      `alpha` of the way to its predicted position (`lerp`). */
  function Smooth(reg: Registry, wallNow: real, alpha: real): (r: Registry)
    ensures r.Keys == reg.Keys
  {
    map k | k in reg :: reg[k].(shown := Lerp(reg[k].shown, Predicted(reg[k], wallNow), alpha))
  }

  /** Smoothing with a factor in [0, 1] only moves where a remote is drawn,
      and moves it toward the prediction without overshooting. */
  lemma SmoothApproaches(reg: Registry, wallNow: real, alpha: real, k: string)
    requires 0.0 <= alpha <= 1.0 && k in reg
    ensures var r := Smooth(reg, wallNow, alpha);
            var target := Predicted(reg[k], wallNow);
            && r[k] == reg[k].(shown := r[k].shown)
            && Between(reg[k].shown.x, r[k].shown.x, target.x)
            && Between(reg[k].shown.y, r[k].shown.y, target.y)
            && Between(reg[k].shown.z, r[k].shown.z, target.z)
            && target.x - r[k].shown.x == (1.0 - alpha) * (target.x - reg[k].shown.x)
            && target.y - r[k].shown.y == (1.0 - alpha) * (target.y - reg[k].shown.y)
            && target.z - r[k].shown.z == (1.0 - alpha) * (target.z - reg[k].shown.z)
  {
    LerpApproaches(reg[k].shown, Predicted(reg[k], wallNow), alpha);
  }

  /** Unheard of for more than 30 s on the monotonic clock. */
  predicate Stale(rm: Remote, monoNow: real) {
    monoNow - rm.lastSeen > StaleAfter
  }

  /** The eviction pass: drops exactly the stale remotes and leaves the
      others as they are. */
  function Sweep(reg: Registry, monoNow: real): (r: Registry)
    ensures forall k :: k in r <==> k in reg && !Stale(reg[k], monoNow)
    ensures forall k :: k in r ==> r[k] == reg[k]
  {
    map k | k in reg && !Stale(reg[k], monoNow) :: reg[k]
  }

  /** The per-frame pass over the remotes, smoothing then eviction: it
      keeps exactly the remotes heard from within 30 s, and changes nothing
      but where they are drawn. */
  function Tick(reg: Registry, wallNow: real, monoNow: real, alpha: real): (r: Registry)
    ensures forall k :: k in r <==> k in reg && monoNow - reg[k].lastSeen <= StaleAfter
    ensures forall k :: k in r ==> r[k] == reg[k].(shown := r[k].shown)
    ensures forall k :: k in r ==> r[k] == Smooth(reg, wallNow, alpha)[k]
  {
    Sweep(Smooth(reg, wallNow, alpha), monoNow)
  }

  /** A peer just heard from survives a later eviction pass exactly when at
      most 30 s have passed since. */
  lemma ReceivedSurvivesSweep(reg: Registry, msg: Option<Protocol.Payload>, peerId: string, self: string,
                              wallNow: real, monoNow: real, later: real)
    requires Accepted(msg, self)
    ensures peerId in Sweep(Receive(reg, msg, peerId, self, wallNow, monoNow), later)
            <==> later - monoNow <= StaleAfter
  {
  }

  /** A first payload from a new peer, with a short id and no name, at
      (0.2, 0.45, 0) moving at (1, 0, 0), sent at 1000 ms: the peer is
      registered under the default name "Player-<id>" with exactly that
      snapshot, resting where new balls are drawn. */
  lemma FirstContactScenario(self: string, id: string, p: Protocol.Payload)
    requires id != self && 0 < |id| <= JoinParams.NameMax - 7 && !JoinParams.IsSpace(id[|id| - 1])
    requires p == Protocol.Payload(Some(id), None, Some(0.2), Some(0.45), None,
                                   Some(1.0), None, None, None, None, None, Some(1.0), Some(1000.0))
    ensures Receive(map[], Some(p), "peer-1", self, 1100.0, 50.0)
            == map["peer-1" := Remote(id, DefaultName(id), Vec3(0.2, 0.45, 0.0), Vec3(1.0, 0.0, 0.0),
                                      IdentityQuat, 1000.0, 50.0, Physics.Spawn.pos)]
  {
    DefaultDisplayName(p, id);
    var s := Protocol.Decode(p, 1100.0);
    assert s == Protocol.Snapshot(Vec3(0.2, 0.45, 0.0), Vec3(1.0, 0.0, 0.0), IdentityQuat, 1000.0);
    var d := DefaultName(id);
    var rm := Refresh(Created(id, d, 50.0), d, s, 50.0);
    assert rm == Remote(id, d, Vec3(0.2, 0.45, 0.0), Vec3(1.0, 0.0, 0.0), IdentityQuat, 1000.0, 50.0, Physics.Spawn.pos);
    assert Receive(map[], Some(p), "peer-1", self, 1100.0, 50.0) == Write(map[], "peer-1", id, d, s, 50.0) == map["peer-1" := rm];
  }

  /** A nameless payload from a peer whose id is short and does not end in
      white space shows the default name. */
  lemma DefaultDisplayName(p: Protocol.Payload, id: string)
    requires p.n.None? && 0 < |id| <= JoinParams.NameMax - 7 && !JoinParams.IsSpace(id[|id| - 1])
    ensures DisplayName(p, id) == Some(DefaultName(id))
  {
    var d := DefaultName(id);
    assert d[0] == 'P' && d[|d| - 1] == id[|id| - 1];
    JoinParams.SanitizeNameKeepsClean(d, d);
  }

  /** A name made only of white space falls back to the default name
      without the 18-character cut, whereas a missing name gets the cut: for
      an id longer than 11 characters the same peer is shown with a name
      longer than 18 or with one of at most 18 characters. */
  lemma BlankNameSkipsCut(p: Protocol.Payload, q: Protocol.Payload, id: string, blank: string)
    requires blank != "" && JoinParams.AllSpace(blank) && p.n == Some(Protocol.Text(blank))
    requires q.n.None? && |id| > JoinParams.NameMax - 7
    ensures DisplayName(p, id) == Some(DefaultName(id))
    ensures |DisplayName(p, id).value| > JoinParams.NameMax
    ensures |DisplayName(q, id).value| <= JoinParams.NameMax
  {
    var d := DefaultName(id);
    assert d[0] == 'P';
    assert !JoinParams.AllSpace(d) by { assert !JoinParams.IsSpace(d[0]); }
  }

  /** A payload without a velocity is drawn where it says the ball is,
      however old it is: the missing velocity reads as 0. */
  lemma NoVelocityPredictedAtNetPos(reg: Registry, msg: Option<Protocol.Payload>, peerId: string,
                                    self: string, wallNow: real, monoNow: real, later: real)
    requires Accepted(msg, self)
    requires !TruthyNumber(msg.value.vx) && !TruthyNumber(msg.value.vy) && !TruthyNumber(msg.value.vz)
    ensures var rm := Receive(reg, msg, peerId, self, wallNow, monoNow)[peerId];
            Predicted(rm, later) == rm.netPos
  {
    var p := msg.value;
    var s := Protocol.Decode(p, wallNow);
    assert s.vel == Origin;
    var r := Write(reg, peerId, p.id.value, DisplayName(p, p.id.value).value, s, monoNow);
    assert Receive(reg, msg, peerId, self, wallNow, monoNow) == r;
    ZeroVelocityStays(r[peerId], later);
  }

  lemma ZeroVelocityStays(rm: Remote, wallNow: real)
    requires rm.netVel == Origin
    ensures Predicted(rm, wallNow) == rm.netPos
  {
  }

  /** That peer, drawn 100 ms after it sent, is predicted 0.1 further along
      x. */
  lemma PredictionScenario(rm: Remote)
    requires rm.netPos == Vec3(0.2, 0.45, 0.0) && rm.netVel == Vec3(1.0, 0.0, 0.0) && rm.netTs == 1000.0
    ensures Predicted(rm, 1100.0) == Vec3(0.3, 0.45, 0.0)
  {
    assert Age(1000.0, 1100.0) == 0.1;
  }

  /** However old the snapshot, the ball is carried at most 0.35 s
      forward, and a snapshot from the future is not carried at all. */
  lemma PredictionHorizon(rm: Remote, wallNow: real)
    ensures wallNow - rm.netTs >= MaxAge * 1000.0 ==> Predicted(rm, wallNow) == AddScaled(rm.netPos, rm.netVel, MaxAge)
    ensures wallNow <= rm.netTs ==> Predicted(rm, wallNow) == rm.netPos
  {
  }
}

=== FILE: physics.dfy ===
/** The local ball's physics step: the body of the frame callback before the
    network and camera work. One call advances the ball by one frame from the
    held keys and the elapsed time. */
module Physics {
  import opened Vectors

  /** Half the side of the square floor. */
  const PlaneHalf: real := 7.0
  const Radius: real := 0.45
  const Accel: real := 18.0
  const Damping: real := 4.8
  const Gravity: real := -24.0
  /** Fraction of vertical speed kept by a floor bounce. */
  const Bounce: real := 0.45
  /** Fraction of horizontal speed kept by a wall bounce. */
  const WallBounce: real := 0.6
  const MaxSpeed: real := 7.5
  /** Upper bound on the time step, against frame hitches. */
  const DtCap: real := 0.033
  /** Vertical speed at or below which a floor contact stops the ball. */
  const RestSpeed: real := 0.2
  /** How far the ball's centre may go from the middle on x and on z. */
  const Limit: real := PlaneHalf - Radius

  /** The movement keys held during a frame. */
  datatype Keys = Keys(w: bool, a: bool, s: bool, d: bool)

  datatype Body = Body(pos: Vec3, vel: Vec3)

  /** The ball as the session creates it: resting on the floor at the centre. */
  const Spawn: Body := Body(Vec3(0.0, Radius, 0.0), Origin)

  /** A vector in the floor plane: its x and z components. */
  datatype Planar = Planar(x: real, z: real)

  function LengthSq(p: Planar): real {
    p.x * p.x + p.z * p.z
  }

  function PlanarVel(b: Body): Planar {
    Planar(b.vel.x, b.vel.z)
  }

  /** The ball rests on or above the floor and inside the walls. */
  predicate InArena(b: Body) {
    && b.pos.y >= Radius
    && -Limit <= b.pos.x <= Limit
    && -Limit <= b.pos.z <= Limit
  }

  /** `Math.min(delta, 0.033)`. */
  function ClampDt(frameDt: real): (dt: real)
    ensures dt <= DtCap && dt <= frameDt
    ensures dt == frameDt || dt == DtCap
  {
    Min(frameDt, DtCap)
  }

  /** -1, 0 or 1 along one axis from the key pair pulling each way. */
  function KeyAxis(neg: bool, pos: bool): real {
    (if pos then 1.0 else 0.0) - (if neg then 1.0 else 0.0)
  }

  /** `v.multiplyScalar(k)`. */
  function Scale(v: Planar, k: real): Planar {
    Planar(v.x * k, v.z * k)
  }

  /** `if (v.lengthSq() > 0) v.normalize()`; Three normalises by multiplying
      with the reciprocal of the length. */
  function Normalise(v: Planar, sqrt: real -> real): Planar
    requires IsSqrt(sqrt)
  {
    if LengthSq(v) > 0.0 then
      var len := sqrt(LengthSq(v));
      assert RootAt(sqrt, LengthSq(v));
      Scale(v, 1.0 / len)
    else
      v
  }

  /** Normalising leaves a vector of zero length alone and turns any other
      vector into a unit vector; either way each component keeps its sign. */
  lemma NormaliseUnitOrZero(v: Planar, sqrt: real -> real)
    requires IsSqrt(sqrt)
    ensures !(LengthSq(v) > 0.0) ==> Normalise(v, sqrt) == v
    ensures LengthSq(v) > 0.0 ==> LengthSq(Normalise(v, sqrt)) == 1.0
    ensures Normalise(v, sqrt).x > 0.0 <==> v.x > 0.0
    ensures Normalise(v, sqrt).x < 0.0 <==> v.x < 0.0
    ensures Normalise(v, sqrt).z > 0.0 <==> v.z > 0.0
    ensures Normalise(v, sqrt).z < 0.0 <==> v.z < 0.0
    ensures Normalise(v, sqrt).x * v.z == Normalise(v, sqrt).z * v.x
  {
    if LengthSq(v) > 0.0 {
      var len := sqrt(LengthSq(v));
      assert RootAt(sqrt, LengthSq(v));
      var inv := 1.0 / len;
      Reciprocal(len, inv);
      UnitAfterScale(v.x, v.z, len, inv);
      PositiveScale(v.x, inv);
      PositiveScale(v.z, inv);
      Parallel(v.x, v.z, inv, v.x * inv, v.z * inv);
    }
  }

  /** `(x k, z k)` is parallel to `(x, z)`. */
  lemma Parallel(x: real, z: real, k: real, p: real, q: real)
    requires p == x * k && q == z * k
    ensures p * z == q * x
  {
  }

  /** A square is non-negative. */
  lemma SquarePositive(x: real)
    ensures 0.0 <= x * x
  {
    if x < 0.0 {
      assert x * x == (-x) * (-x);
    }
  }

  /** `inv` is the reciprocal of a positive `len`, and is positive. */
  lemma Reciprocal(len: real, inv: real)
    requires 0.0 < len && inv == 1.0 / len
    ensures inv * len == 1.0 && 0.0 < inv
  {
  }

  /** Multiplying both components by the reciprocal of the length gives a
      vector of length one. */
  lemma UnitAfterScale(x: real, z: real, len: real, inv: real)
    requires 0.0 < len && len * len == x * x + z * z
    requires inv * len == 1.0
    ensures (x * inv) * (x * inv) + (z * inv) * (z * inv) == 1.0
  {
    var nx, nz := x * inv, z * inv;
    InverseProduct(inv, len, nx, x);
    InverseProduct(inv, len, nz, z);
    ScaledSquares(nx, nz, len, x, z);
    Cancel(nx * nx + nz * nz, len * len, x * x + z * z);
  }

  lemma InverseProduct(inv: real, len: real, a: real, x: real)
    requires inv * len == 1.0 && a == x * inv
    ensures a * len == x
  {
    assert a * len == x * (inv * len);
  }

  /** If `p = a k` and `q = b k` then `p² + q² = (a² + b²) k²`. */
  lemma ScaledSquares(a: real, b: real, k: real, p: real, q: real)
    requires p == a * k && q == b * k
    ensures p * p + q * q == (a * a + b * b) * (k * k)
  {
  }

  lemma Cancel(s: real, l: real, m: real)
    requires 0.0 < l && m == s * l && m == l
    ensures s == 1.0
  {
  }

  lemma PositiveScale(x: real, k: real)
    requires 0.0 < k
    ensures x * k > 0.0 <==> x > 0.0
    ensures x * k < 0.0 <==> x < 0.0
  {
  }

  /** The signs and the zero of one key axis. */
  lemma KeyAxisSigns(neg: bool, pos: bool)
    ensures KeyAxis(neg, pos) > 0.0 <==> pos && !neg
    ensures KeyAxis(neg, pos) < 0.0 <==> neg && !pos
    ensures KeyAxis(neg, pos) == 0.0 <==> neg == pos
  {
  }

  /** A key axis squares to 0 when its keys cancel and to 1 otherwise. */
  lemma KeyAxisSquare(neg: bool, pos: bool)
    ensures KeyAxis(neg, pos) * KeyAxis(neg, pos) == if neg == pos then 0.0 else 1.0
  {
    if neg == pos {
      assert KeyAxis(neg, pos) == 0.0;
    } else if pos {
      assert KeyAxis(neg, pos) == 1.0;
    } else {
      assert KeyAxis(neg, pos) == -1.0;
    }
  }

  /** The input direction: W and S pull along -z and +z, A and D along -x
      and +x, and the sum is normalised. */
  function InputDir(k: Keys, sqrt: real -> real): Planar
    requires IsSqrt(sqrt)
  {
    Normalise(Planar(KeyAxis(k.a, k.d), KeyAxis(k.w, k.s)), sqrt)
  }

  /** The input direction is zero when opposite keys cancel on both axes and
      a unit vector otherwise; each component has the sign its keys ask
      for. */
  lemma InputDirUnitOrZero(k: Keys, sqrt: real -> real)
    requires IsSqrt(sqrt)
    ensures k.a == k.d && k.w == k.s ==> InputDir(k, sqrt) == Planar(0.0, 0.0)
    ensures !(k.a == k.d && k.w == k.s) ==> LengthSq(InputDir(k, sqrt)) == 1.0
    ensures InputDir(k, sqrt).x > 0.0 <==> k.d && !k.a
    ensures InputDir(k, sqrt).x < 0.0 <==> k.a && !k.d
    ensures InputDir(k, sqrt).z > 0.0 <==> k.s && !k.w
    ensures InputDir(k, sqrt).z < 0.0 <==> k.w && !k.s
    ensures k.a != k.d && k.w != k.s ==> Abs(InputDir(k, sqrt).x) == Abs(InputDir(k, sqrt).z)
  {
    KeyAxisSigns(k.a, k.d);
    KeyAxisSigns(k.w, k.s);
    KeyAxisSquare(k.a, k.d);
    KeyAxisSquare(k.w, k.s);
    NormaliseUnitOrZero(Planar(KeyAxis(k.a, k.d), KeyAxis(k.w, k.s)), sqrt);
  }

  /** For a non-negative root `s` of `l`, `s` exceeds `m` exactly when `l`
      exceeds `m * m`. */
  lemma RootCompare(s: real, l: real, m: real)
    requires 0.0 <= s && s * s == l && 0.0 < m
    ensures s > m <==> l > m * m
  {
    if s > m {
      assert s * s > m * s >= m * m;
    } else {
      assert s * s <= m * s <= m * m;
    }
  }

  /** `planar.setLength(maxSpeed)` when the planar speed exceeds the limit
      (Three's `setLength` normalises, then multiplies by the length). The
      result is untouched within the limit, exactly on it otherwise, and is a
      non-negative multiple of `v` either way. */
  function ClampSpeed(v: Planar, sqrt: real -> real): (c: Planar)
    requires IsSqrt(sqrt)
    ensures LengthSq(v) <= MaxSpeed * MaxSpeed ==> c == v
    ensures LengthSq(v) > MaxSpeed * MaxSpeed ==> LengthSq(c) == MaxSpeed * MaxSpeed
    ensures c.x * v.z == c.z * v.x && 0.0 <= c.x * v.x && 0.0 <= c.z * v.z
  {
    var speed := sqrt(LengthSq(v));
    assert RootAt(sqrt, LengthSq(v));
    RootCompare(speed, LengthSq(v), MaxSpeed);
    if speed > MaxSpeed then
      var inv := 1.0 / speed;
      Reciprocal(speed, inv);
      UnitAfterScale(v.x, v.z, speed, inv);
      SetLengthFacts(v.x, v.z, inv, MaxSpeed);
      Scale(Scale(v, inv), MaxSpeed)
    else
      SquarePositive(v.x);
      SquarePositive(v.z);
      v
  }

  /** Rescaling a unit multiple `(x k, z k)` of `(x, z)` by `m > 0` gives
      length `m` and keeps the direction of `(x, z)`. */
  lemma SetLengthFacts(x: real, z: real, k: real, m: real)
    requires 0.0 < k && 0.0 < m
    requires (x * k) * (x * k) + (z * k) * (z * k) == 1.0
    ensures var cx, cz := (x * k) * m, (z * k) * m;
            && cx * cx + cz * cz == m * m
            && cx * z == cz * x && 0.0 <= cx * x && 0.0 <= cz * z
  {
    var ux, uz := x * k, z * k;
    ScaledSquares(ux, uz, m, ux * m, uz * m);
    var km := k * m;
    assert 0.0 < km;
    SquarePositive(x);
    SquarePositive(z);
    assert (x * k) * m * x == km * (x * x);
    assert (z * k) * m * z == km * (z * z);
  }

  /** The damping factor `max(0, 1 - damping*dt)`: `1 - damping*dt` while
      that is non-negative, 0 once the step is long enough to stop the
      ball. */
  function DampFactor(dt: real): (f: real)
    ensures 0.0 <= dt ==> 0.0 <= f <= 1.0
    ensures 0.0 <= f
    ensures 1.0 - Damping * dt <= f
    ensures f == 0.0 || f == 1.0 - Damping * dt
  {
    Max(0.0, 1.0 - Damping * dt)
  }

  /** Free flight for one step of length `dt`: acceleration from the keys,
      speed clamp, damping and gravity, then the position moves with the new
      velocity (semi-implicit Euler). No collision is handled here. */
  function Integrate(b: Body, keys: Keys, dt: real, sqrt: real -> real): (r: Body)
    requires IsSqrt(sqrt)
    ensures 0.0 <= dt ==> LengthSq(PlanarVel(r)) <= MaxSpeed * MaxSpeed
    ensures r.vel.y == b.vel.y + Gravity * dt
    ensures r.pos.y == b.pos.y + r.vel.y * dt
    ensures r.pos == AddScaled(b.pos, r.vel, dt)
    ensures PlanarVel(r) == FlightPlanar(PlanarVel(b), keys, dt, sqrt)
  {
    var vel := FlightVelocity(b.vel, keys, dt, sqrt);
    var pos := AddScaled(b.pos, vel, dt);
    Body(pos, vel)
  }

  /** The velocity after the key acceleration, the speed clamp, damping and
      gravity. */
  function FlightVelocity(v: Vec3, keys: Keys, dt: real, sqrt: real -> real): (r: Vec3)
    requires IsSqrt(sqrt)
    ensures 0.0 <= dt ==> LengthSq(Planar(r.x, r.z)) <= MaxSpeed * MaxSpeed
    ensures r.y == v.y + Gravity * dt
    ensures Planar(r.x, r.z) == FlightPlanar(Planar(v.x, v.z), keys, dt, sqrt)
  {
    var p := FlightPlanar(Planar(v.x, v.z), keys, dt, sqrt);
    Vec3(p.x, v.y + Gravity * dt, p.z)
  }

  /** The planar part of the flight velocity: push along the input
      direction, clamp the speed, then damp. A pushed velocity within the
      limit is only damped; a faster one leaves at the limit times the
      damping factor. */
  function FlightPlanar(v: Planar, keys: Keys, dt: real, sqrt: real -> real): (r: Planar)
    requires IsSqrt(sqrt)
    ensures 0.0 <= dt ==> LengthSq(r) <= MaxSpeed * MaxSpeed
    ensures LengthSq(Push(v, keys, dt, sqrt)) <= MaxSpeed * MaxSpeed ==>
              r == Scale(Push(v, keys, dt, sqrt), DampFactor(dt))
    ensures LengthSq(Push(v, keys, dt, sqrt)) > MaxSpeed * MaxSpeed ==>
              LengthSq(r) == MaxSpeed * MaxSpeed * (DampFactor(dt) * DampFactor(dt))
  {
    var p := Push(v, keys, dt, sqrt);
    var c := ClampSpeed(p, sqrt);
    var f := DampFactor(dt);
    var d := Scale(c, f);
    DampShrinks(c, f, d);
    d
  }

  /** `velocity.x += inputDir.x * accel * dt` and the same along z; with
      the keys cancelling on both axes the velocity is unchanged. */
  function Push(v: Planar, keys: Keys, dt: real, sqrt: real -> real): (r: Planar)
    requires IsSqrt(sqrt)
    ensures r.x == v.x + InputDir(keys, sqrt).x * Accel * dt
    ensures r.z == v.z + InputDir(keys, sqrt).z * Accel * dt
    ensures keys.a == keys.d && keys.w == keys.s ==> r == v
  {
    var dir := InputDir(keys, sqrt);
    InputDirUnitOrZero(keys, sqrt);
    Planar(v.x + dir.x * Accel * dt, v.z + dir.z * Accel * dt)
  }

  /** The flight step is the speed clamp of the pushed velocity, damped. */
  lemma FlightIsClampDamp(v: Planar, keys: Keys, dt: real, sqrt: real -> real)
    requires IsSqrt(sqrt)
    ensures FlightPlanar(v, keys, dt, sqrt) == Scale(ClampSpeed(Push(v, keys, dt, sqrt), sqrt), DampFactor(dt))
  {
  }

  /** `a` points the way `b` does: parallel, and no component of opposite
      sign. */
  predicate SameDirection(a: Planar, b: Planar) {
    a.x * b.z == a.z * b.x && 0.0 <= a.x * b.x && 0.0 <= a.z * b.z
  }

  /** Clamping and damping keep the direction of the pushed velocity: the
      result is parallel to it and no component changes sign. */
  lemma ClampDampKeepsDirection(p: Planar, dt: real, sqrt: real -> real)
    requires IsSqrt(sqrt)
    ensures SameDirection(Scale(ClampSpeed(p, sqrt), DampFactor(dt)), p)
  {
    var c := ClampSpeed(p, sqrt);
    assert SameDirection(c, p);
    DampKeepsDirection(c, p, DampFactor(dt));
  }

  /** The flight velocity points the way the pushed velocity does. */
  lemma FlightKeepsPushDirection(v: Planar, keys: Keys, dt: real, sqrt: real -> real)
    requires IsSqrt(sqrt)
    ensures SameDirection(FlightPlanar(v, keys, dt, sqrt), Push(v, keys, dt, sqrt))
  {
    FlightIsClampDamp(v, keys, dt, sqrt);
    ClampDampKeepsDirection(Push(v, keys, dt, sqrt), dt, sqrt);
  }

  /** Scaling by a factor `f >= 0` keeps a direction. */
  lemma DampKeepsDirection(c: Planar, p: Planar, f: real)
    requires 0.0 <= f && SameDirection(c, p)
    ensures SameDirection(Scale(c, f), p)
  {
    var r := Scale(c, f);
    ScaleKeepsDirection(c.x, c.z, p.x, p.z, f, r.x, r.z);
  }

  lemma ScaleKeepsDirection(cx: real, cz: real, px: real, pz: real, f: real, rx: real, rz: real)
    requires 0.0 <= f && rx == cx * f && rz == cz * f
    requires cx * pz == cz * px && 0.0 <= cx * px && 0.0 <= cz * pz
    ensures rx * pz == rz * px && 0.0 <= rx * px && 0.0 <= rz * pz
  {
    assert rx * pz == f * (cx * pz);
    assert rz * px == f * (cz * px);
    assert rx * px == f * (cx * px);
    assert rz * pz == f * (cz * pz);
  }

  /** With no key held and the velocity within the limit, flying only
      damps. */
  lemma NoKeysOnlyDamps(v: Planar, dt: real, sqrt: real -> real)
    requires IsSqrt(sqrt) && LengthSq(v) <= MaxSpeed * MaxSpeed
    ensures FlightPlanar(v, Keys(false, false, false, false), dt, sqrt) == Scale(v, DampFactor(dt))
  {
    assert Push(v, Keys(false, false, false, false), dt, sqrt) == v;
  }

  /** Damping by `f` scales the squared speed by `f²`, so a factor in
      [0, 1] keeps the speed limit. */
  lemma DampShrinks(c: Planar, f: real, d: Planar)
    requires 0.0 <= f && LengthSq(c) <= MaxSpeed * MaxSpeed && d == Scale(c, f)
    ensures LengthSq(d) == LengthSq(c) * (f * f)
    ensures f <= 1.0 ==> LengthSq(d) <= MaxSpeed * MaxSpeed
  {
    ScaledSquares(c.x, c.z, f, d.x, d.z);
    if f <= 1.0 {
      ScaleUnit(f, f, f * f);
      SquarePositive(c.x);
      SquarePositive(c.z);
      ScaleUnit(LengthSq(c), f * f, LengthSq(c) * (f * f));
    }
  }

  /** Position and velocity along one axis. */
  datatype Motion = Motion(p: real, v: real)

  /** The floor contact: below the floor the ball is put back on it and
      bounces with 45% of its vertical speed, or stops if it was slow. A ball
      that was moving down leaves the floor upward or at rest, and a bounce
      never adds speed. */
  function FloorClamp(m: Motion): (r: Motion)
    ensures r.p >= Radius
    ensures m.p >= Radius ==> r == m
    ensures m.p < Radius ==> r.p == Radius
    ensures m.p < Radius && Abs(m.v) <= RestSpeed ==> r.v == 0.0
    ensures m.p < Radius && Abs(m.v) > RestSpeed ==> r.v == -m.v * Bounce
    ensures m.p < Radius && m.v <= 0.0 ==> r.v >= 0.0
    ensures Abs(r.v) <= Abs(m.v)
  {
    if m.p < Radius then
      Motion(Radius, if Abs(m.v) > RestSpeed then -m.v * Bounce else 0.0)
    else
      m
  }

  /** The wall contact along x or z: past the + wall the ball is put on it
      and its velocity turned to point away (`<= 0`), past the - wall
      likewise (`>= 0`), keeping 60% of the speed. */
  function WallClamp(m: Motion): (r: Motion)
    ensures -Limit <= r.p <= Limit
    ensures -Limit <= m.p <= Limit ==> r == m
    ensures m.p > Limit ==> r.p == Limit && r.v <= 0.0 && Abs(r.v) == WallBounce * Abs(m.v)
    ensures m.p < -Limit ==> r.p == -Limit && r.v >= 0.0 && Abs(r.v) == WallBounce * Abs(m.v)
  {
    if m.p > Limit then Motion(Limit, -Abs(m.v) * WallBounce)
    else if m.p < -Limit then Motion(-Limit, Abs(m.v) * WallBounce)
    else m
  }

  /** Floor then walls: the floor rule along y and the wall rule along x
      and z, each axis on its own. The result is in the arena; a body
      already in the arena is left alone; no velocity component grows. */
  function Collide(b: Body): (r: Body)
    ensures Motion(r.pos.x, r.vel.x) == WallClamp(Motion(b.pos.x, b.vel.x))
    ensures Motion(r.pos.y, r.vel.y) == FloorClamp(Motion(b.pos.y, b.vel.y))
    ensures Motion(r.pos.z, r.vel.z) == WallClamp(Motion(b.pos.z, b.vel.z))
    ensures InArena(r)
    ensures InArena(b) ==> r == b
    ensures Abs(r.vel.x) <= Abs(b.vel.x)
    ensures Abs(r.vel.y) <= Abs(b.vel.y)
    ensures Abs(r.vel.z) <= Abs(b.vel.z)
  {
    var fy := FloorClamp(Motion(b.pos.y, b.vel.y));
    var fx := WallClamp(Motion(b.pos.x, b.vel.x));
    var fz := WallClamp(Motion(b.pos.z, b.vel.z));
    Body(Vec3(fx.p, fy.p, fz.p), Vec3(fx.v, fy.v, fz.v))
  }

  /** Colliding twice is colliding once. */
  lemma CollideIdempotent(b: Body)
    ensures Collide(Collide(b)) == Collide(b)
  {
  }

  lemma AbsSquare(a: real, b: real)
    requires Abs(a) <= Abs(b)
    ensures a * a <= b * b
  {
    assert a * a == Abs(a) * Abs(a);
    assert b * b == Abs(b) * Abs(b);
    assert Abs(a) * Abs(a) <= Abs(b) * Abs(a) <= Abs(b) * Abs(b);
  }

  /** One frame of the local ball: clamp the time step, fly, then collide.
      Whatever the keys, the elapsed time and the starting state, the ball
      ends on or above the floor and inside the walls; for a non-negative
      elapsed time its planar speed is within `MaxSpeed`. */
  function Step(b: Body, keys: Keys, frameDt: real, sqrt: real -> real): (r: Body)
    requires IsSqrt(sqrt)
    ensures InArena(r)
    ensures 0.0 <= frameDt ==> LengthSq(PlanarVel(r)) <= MaxSpeed * MaxSpeed
  {
    var dt := ClampDt(frameDt);
    var f := Integrate(b, keys, dt, sqrt);
    var r := Collide(f);
    CollideKeepsSpeedBound(f, r);
    r
  }

  /** A frame is the flight over the clamped time step followed by the
      collision: the exact rules of `Integrate`, `FloorClamp` and
      `WallClamp` are the rules of a frame. */
  lemma StepIsFlyThenCollide(b: Body, keys: Keys, frameDt: real, sqrt: real -> real)
    requires IsSqrt(sqrt)
    ensures Step(b, keys, frameDt, sqrt) == Collide(Integrate(b, keys, ClampDt(frameDt), sqrt))
  {
  }

  lemma CollideKeepsSpeedBound(f: Body, r: Body)
    requires Abs(r.vel.x) <= Abs(f.vel.x) && Abs(r.vel.z) <= Abs(f.vel.z)
    ensures LengthSq(PlanarVel(r)) <= LengthSq(PlanarVel(f))
  {
    AbsSquare(r.vel.x, f.vel.x);
    AbsSquare(r.vel.z, f.vel.z);
  }

  /** The floor contact inside a step: when free flight from a ball on or
      above the floor ends below it, the ball is put on the floor and its
      vertical velocity is the bounce rule applied to the flight velocity,
      which points up or is zero. */
  lemma StepFloorContact(b: Body, keys: Keys, frameDt: real, sqrt: real -> real)
    requires IsSqrt(sqrt)
    requires b.pos.y >= Radius && 0.0 <= frameDt
    ensures var f := Integrate(b, keys, ClampDt(frameDt), sqrt);
            var r := Step(b, keys, frameDt, sqrt);
            f.pos.y < Radius ==>
              && r.pos.y == Radius
              && r.vel.y == (if Abs(f.vel.y) > RestSpeed then -f.vel.y * Bounce else 0.0)
              && r.vel.y >= 0.0
  {
    var dt := ClampDt(frameDt);
    var f := Integrate(b, keys, dt, sqrt);
    assert f.pos.y == b.pos.y + f.vel.y * dt;
    FallingOnly(b.pos.y, f.vel.y, dt);
    var r := Collide(f);
    assert r == Step(b, keys, frameDt, sqrt);
    assert Motion(r.pos.y, r.vel.y) == FloorClamp(Motion(f.pos.y, f.vel.y));
  }

  /** Starting on or above the floor, a non-negative step can only end below
      it by moving down. */
  lemma FallingOnly(y: real, vy: real, dt: real)
    requires y >= Radius && 0.0 <= dt
    ensures y + vy * dt < Radius ==> vy < 0.0
  {
    if vy >= 0.0 {
      assert vy * dt >= 0.0;
    }
  }

  /** The held keys and elapsed time of one frame. */
  datatype Input = Input(keys: Keys, frameDt: real)

  /** The ball after a sequence of frames. */
  function Run(b: Body, inputs: seq<Input>, sqrt: real -> real): Body
    requires IsSqrt(sqrt)
    decreases |inputs|
  {
    if inputs == [] then b
    else Run(Step(b, inputs[0].keys, inputs[0].frameDt, sqrt), inputs[1..], sqrt)
  }

  ghost predicate Settled(b: Body) {
    InArena(b) && LengthSq(PlanarVel(b)) <= MaxSpeed * MaxSpeed
  }

  /** The floor, wall and speed invariants hold after any number of frames
      from a settled start, such as the spawn point. */
  lemma {:induction false} RunStaysSettled(b: Body, inputs: seq<Input>, sqrt: real -> real)
    requires IsSqrt(sqrt)
    requires Settled(b)
    requires forall i :: 0 <= i < |inputs| ==> 0.0 <= inputs[i].frameDt
    ensures Settled(Run(b, inputs, sqrt))
    decreases |inputs|
  {
    if inputs != [] {
      var b' := Step(b, inputs[0].keys, inputs[0].frameDt, sqrt);
      assert forall i :: 0 <= i < |inputs[1..]| ==> inputs[1..][i] == inputs[i + 1];
      RunStaysSettled(b', inputs[1..], sqrt);
    }
  }

  lemma SpawnSettled()
    ensures Settled(Spawn)
  {
  }

  /** A ball that flew below the floor and past the +z wall: it is put on
      the floor and on the wall, its fast fall turns into a bounce at 45%,
      its z velocity is reversed at 60%, and x is untouched. */
  lemma CollideScenario()
    ensures Collide(Body(Vec3(1.0, 0.3, 6.8), Vec3(2.0, -3.0, 1.0)))
            == Body(Vec3(1.0, 0.45, 6.55), Vec3(2.0, 1.35, -0.6))
  {
  }
}

=== FILE: protocol.dfy ===
/** The "state" action's payload: the snapshot a client broadcasts about its
    own ball, and how a receiver reads it back with JavaScript `||`
    defaults. */
module Protocol {
  import opened JsValues
  import opened Vectors
  import Physics

  /** The `n` field of a received payload: a string, or some other JSON
      value, of which only its truthiness matters. */
  datatype NameField = Text(s: string) | NonText(truthy: bool)

  /** A received state payload as untyped JSON: every field may be missing.
      Positions, velocities and the orientation are in world units, `ts` is
      the sender's wall clock in milliseconds. */
  datatype Payload = Payload(
    id: Option<string>, n: Option<NameField>,
    px: Option<real>, py: Option<real>, pz: Option<real>,
    vx: Option<real>, vy: Option<real>, vz: Option<real>,
    qx: Option<real>, qy: Option<real>, qz: Option<real>, qw: Option<real>,
    ts: Option<real>)

  /** What a receiver keeps of a payload: the network pose and its time. */
  datatype Snapshot = Snapshot(pos: Vec3, vel: Vec3, quat: Quat, ts: real)

  /** `broadcastState`'s payload: the session id, the player name, the ball's
      position, velocity and orientation, and the wall clock. */
  function Encode(sessionId: string, playerName: string, b: Physics.Body, q: Quat, wallNow: real): Payload {
    Payload(Some(sessionId), Some(Text(playerName)),
            Some(b.pos.x), Some(b.pos.y), Some(b.pos.z),
            Some(b.vel.x), Some(b.vel.y), Some(b.vel.z),
            Some(q.x), Some(q.y), Some(q.z), Some(q.w),
            Some(wallNow))
  }

  /** The receive handler's reading of the numeric fields: `px || 0`,
      `py || radius`, `pz || 0`, the velocity `|| 0`, `qx`, `qy`, `qz`
      `|| 0`, `qw || 1`, and `ts || Date.now()`. */
  function Decode(p: Payload, wallNow: real): (s: Snapshot)
    ensures TruthyNumber(p.px) ==> s.pos.x == p.px.value
    ensures TruthyNumber(p.py) ==> s.pos.y == p.py.value
    ensures TruthyNumber(p.pz) ==> s.pos.z == p.pz.value
    ensures TruthyNumber(p.vx) ==> s.vel.x == p.vx.value
    ensures TruthyNumber(p.vy) ==> s.vel.y == p.vy.value
    ensures TruthyNumber(p.vz) ==> s.vel.z == p.vz.value
    ensures TruthyNumber(p.qx) ==> s.quat.x == p.qx.value
    ensures TruthyNumber(p.qy) ==> s.quat.y == p.qy.value
    ensures TruthyNumber(p.qz) ==> s.quat.z == p.qz.value
    ensures TruthyNumber(p.qw) ==> s.quat.w == p.qw.value
    ensures TruthyNumber(p.ts) ==> s.ts == p.ts.value
    ensures !TruthyNumber(p.px) ==> s.pos.x == 0.0
    ensures !TruthyNumber(p.py) ==> s.pos.y == Physics.Radius
    ensures !TruthyNumber(p.pz) ==> s.pos.z == 0.0
    ensures !TruthyNumber(p.vx) ==> s.vel.x == 0.0
    ensures !TruthyNumber(p.vy) ==> s.vel.y == 0.0
    ensures !TruthyNumber(p.vz) ==> s.vel.z == 0.0
    ensures !TruthyNumber(p.qx) ==> s.quat.x == 0.0
    ensures !TruthyNumber(p.qy) ==> s.quat.y == 0.0
    ensures !TruthyNumber(p.qz) ==> s.quat.z == 0.0
    ensures !TruthyNumber(p.qw) ==> s.quat.w == 1.0
    ensures !TruthyNumber(p.ts) ==> s.ts == wallNow
  {
    Snapshot(
      Vec3(OrNumber(p.px, 0.0), OrNumber(p.py, Physics.Radius), OrNumber(p.pz, 0.0)),
      Vec3(OrNumber(p.vx, 0.0), OrNumber(p.vy, 0.0), OrNumber(p.vz, 0.0)),
      Quat(OrNumber(p.qx, 0.0), OrNumber(p.qy, 0.0), OrNumber(p.qz, 0.0), OrNumber(p.qw, 1.0)),
      OrNumber(p.ts, wallNow))
  }

  /** A present field holding 0 reads like a missing one. */
  function Blank(x: Option<real>): Option<real> {
    if x == Some(0.0) then None else x
  }

  /** Decoding cannot tell a zero from a missing field: blanking every zero
      field changes nothing. */
  lemma DecodeZeroIsMissing(p: Payload, wallNow: real)
    ensures Decode(p, wallNow) == Decode(p.(px := Blank(p.px), py := Blank(p.py), pz := Blank(p.pz),
                                            vx := Blank(p.vx), vy := Blank(p.vy), vz := Blank(p.vz),
                                            qx := Blank(p.qx), qy := Blank(p.qy), qz := Blank(p.qz),
                                            qw := Blank(p.qw), ts := Blank(p.ts)), wallNow)
  {
  }

  /** Reading back one's own snapshot gives the ball, the orientation and
      the time exactly, provided the three fields with a non-zero default
      are not zero: the height (default `radius`), `w` (default 1) and the
      clock (default the receiver's clock). Zero x/z and velocity
      components are harmless because their default is 0. */
  lemma DecodeEncode(sessionId: string, playerName: string, b: Physics.Body, q: Quat,
                     sentAt: real, receivedAt: real)
    requires b.pos.y != 0.0 && q.w != 0.0 && sentAt != 0.0
    ensures Decode(Encode(sessionId, playerName, b, q, sentAt), receivedAt)
            == Snapshot(b.pos, b.vel, q, sentAt)
  {
  }

  /** A ball in the arena is above the floor, so its height survives the
      round trip. */
  lemma DecodeEncodeInArena(sessionId: string, playerName: string, b: Physics.Body, q: Quat,
                            sentAt: real, receivedAt: real)
    requires Physics.InArena(b) && q.w != 0.0 && sentAt != 0.0
    ensures Decode(Encode(sessionId, playerName, b, q, sentAt), receivedAt)
            == Snapshot(b.pos, b.vel, q, sentAt)
  {
    DecodeEncode(sessionId, playerName, b, q, sentAt, receivedAt);
  }

  /** The `qw || 1` default misreads an orientation whose `w` is 0 (a half
      turn): the unit quaternion (1, 0, 0, 0) arrives as (1, 0, 0, 1), whose
      squared norm is 2. */
  lemma DecodeHalfTurn(sessionId: string, playerName: string, b: Physics.Body, sentAt: real,
                       receivedAt: real)
    ensures var q := Quat(1.0, 0.0, 0.0, 0.0);
            && QuatNormSq(q) == 1.0
            && Decode(Encode(sessionId, playerName, b, q, sentAt), receivedAt).quat == Quat(1.0, 0.0, 0.0, 1.0)
            && QuatNormSq(Decode(Encode(sessionId, playerName, b, q, sentAt), receivedAt).quat) == 2.0
  {
  }

  /** A payload with no numeric fields at all reads as a ball resting on the
      floor at the centre, not moving, unrotated, stamped with the
      receiver's clock. */
  lemma DecodeEmpty(id: Option<string>, n: Option<NameField>, wallNow: real)
    ensures Decode(Payload(id, n, None, None, None, None, None, None, None, None, None, None, None), wallNow)
            == Snapshot(Physics.Spawn.pos, Physics.Spawn.vel, IdentityQuat, wallNow)
  {
  }
}

=== FILE: session.dfy ===
/** The client session: joining the room, the two send throttles, and one
    animation frame put together from the physics step, the remote pass and
    painting. */
module Session {
  import opened JsValues
  import opened Vectors
  import Physics
  import Protocol
  import Peers
  import Paint

  /** The connection status shown in the badge. */
  datatype NetState = Connecting | Online | Offline

  /** The connection status and which of the two actions' send functions
      have been obtained from the room. */
  datatype Link = Link(state: NetState, hasStateSender: bool, hasPaintSender: bool)

  /** Before `initRealtime` settles: connecting, with nothing to send with. */
  const Start: Link := Link(Connecting, false, false)

  /** How the `try` block of `initRealtime` ends: it runs through; it throws
      before the send functions are stored (loading the transport, joining,
      creating the actions); or it throws after they are stored (while
      registering the handlers). */
  datatype Outcome = Joined | FailedBeforeSenders | FailedAfterSenders

  /** `initRealtime`, run once from the start: online with both senders
      when everything succeeds, otherwise offline; the senders are stored
      together, so a failure while registering handlers leaves a client that
      is offline but still sending. */
  function Connect(outcome: Outcome): (r: Link)
    ensures r.state != Connecting
    ensures r.state == Online <==> outcome == Joined
    ensures r.hasStateSender == r.hasPaintSender
    ensures r.hasStateSender <==> outcome != FailedBeforeSenders
  {
    match outcome
    case Joined => Link(Online, true, true)
    case FailedBeforeSenders => Start.(state := Offline)
    case FailedAfterSenders => Link(Offline, true, true)
  }

  /** Being online means being able to send, but being offline does not mean
      being silent. */
  lemma OfflineMaySend()
    ensures forall o :: Connect(o).state == Online ==> Connect(o).hasStateSender
    ensures Connect(FailedAfterSenders).state == Offline && Connect(FailedAfterSenders).hasStateSender
  {
  }

  /** The period of both throttles, in seconds. */
  const SendInterval: real := 1.0 / 20.0

  /** One throttle decision and the accumulator it leaves. */
  datatype Gate = Gate(fire: bool, acc: real)

  /** The `netTick` / `paintTick` throttle: add the frame time; fire when a
      sender exists and the sum exceeds 1/20 s, resetting the accumulator to
      0; otherwise keep the sum. */
  function Throttle(acc: real, dt: real, canSend: bool): (g: Gate)
    ensures g.fire <==> canSend && acc + dt > SendInterval
    ensures g.fire ==> g.acc == 0.0
    ensures !g.fire ==> g.acc == acc + dt
  {
    var sum := acc + dt;
    if canSend && sum > SendInterval then Gate(true, 0.0) else Gate(false, sum)
  }

  /** Frames are at most 0.033 s, so right after a send the next frame never
      sends again. */
  lemma NoBackToBack(acc: real, dt1: real, dt2: real, canSend: bool)
    requires dt2 <= Physics.DtCap
    requires Throttle(acc, dt1, canSend).fire
    ensures !Throttle(Throttle(acc, dt1, canSend).acc, dt2, canSend).fire
  {
  }

  function Sum(dts: seq<real>): real {
    if dts == [] then 0.0 else Sum(dts[..|dts| - 1]) + dts[|dts| - 1]
  }

  /** The throttle applied frame by frame: the number of sends and the final
      accumulator. */
  function Sends(acc: real, dts: seq<real>, canSend: bool): (r: (nat, real))
    decreases |dts|
  {
    if dts == [] then (0, acc)
    else
      var (n, a) := Sends(acc, dts[..|dts| - 1], canSend);
      var g := Throttle(a, dts[|dts| - 1], canSend);
      (if g.fire then n + 1 else n, g.acc)
  }

  /** Without a sender nothing is ever sent, and the accumulator keeps
      growing by the frame times. */
  lemma {:induction false} NeverSendsWithoutSender(acc: real, dts: seq<real>)
    ensures Sends(acc, dts, false) == (0, acc + Sum(dts))
  {
    if dts != [] {
      NeverSendsWithoutSender(acc, dts[..|dts| - 1]);
    }
  }

  /** At most 20 sends per second of frame time: each send spends more than
      1/20 s of accumulated time. */
  lemma {:induction false} SendRateBound(acc: real, dts: seq<real>, canSend: bool)
    ensures Sends(acc, dts, canSend).0 as real * SendInterval + Sends(acc, dts, canSend).1 <= acc + Sum(dts)
  {
    if dts != [] {
      SendRateBound(acc, dts[..|dts| - 1], canSend);
    }
  }

  /** With a sender and frames clamped to 0.033 s, sends keep up: each send
      spends at most 1/20 s plus one frame, and the accumulator never holds
      more than 1/20 s. */
  lemma {:induction false} SendRateFloor(acc: real, dts: seq<real>)
    requires 0.0 <= acc <= SendInterval
    requires forall i :: 0 <= i < |dts| ==> 0.0 <= dts[i] <= Physics.DtCap
    ensures 0.0 <= Sends(acc, dts, true).1 <= SendInterval
    ensures Sends(acc, dts, true).0 as real * (SendInterval + Physics.DtCap) + Sends(acc, dts, true).1 >= acc + Sum(dts)
  {
    if dts != [] {
      var init := dts[..|dts| - 1];
      var dt := dts[|dts| - 1];
      assert 0.0 <= dt <= Physics.DtCap;
      SendRateFloor(acc, init);
    }
  }

  /** One state send: the payload and, for the greeting of a newly joined
      peer, its target. */
  datatype StateSend = StateSend(payload: Protocol.Payload, target: Option<string>)

  /** `broadcastState`: nothing without a sender, otherwise the local ball's
      snapshot, to the one peer named by a truthy target or else to all (an
      empty target broadcasts). */
  function BroadcastState(l: Link, target: Option<string>, sessionId: string, playerName: string,
                          b: Physics.Body, q: Quat, wallNow: real): (s: Option<StateSend>)
    ensures s.Some? <==> l.hasStateSender
    ensures s.Some? ==> (s.value.target.Some? <==> TruthyString(target))
    ensures s.Some? && TruthyString(target) ==> s.value.target == target
  {
    if !l.hasStateSender then None
    else Some(StateSend(Protocol.Encode(sessionId, playerName, b, q, wallNow),
                        if TruthyString(target) then target else None))
  }

  /** A joining peer is greeted with the current snapshot, sent to it alone
      (to everybody should its id be empty), and it reads the ball back
      exactly. */
  lemma GreetingReadsBack(l: Link, peerId: string, sessionId: string, playerName: string,
                          b: Physics.Body, q: Quat, sentAt: real, receivedAt: real)
    requires l.hasStateSender && Physics.InArena(b) && q.w != 0.0 && sentAt != 0.0
    ensures var s := BroadcastState(l, Some(peerId), sessionId, playerName, b, q, sentAt);
            && s.Some? && s.value.target == (if peerId != "" then Some(peerId) else None)
            && Protocol.Decode(s.value.payload, receivedAt) == Protocol.Snapshot(b.pos, b.vel, q, sentAt)
  {
    Protocol.DecodeEncodeInArena(sessionId, playerName, b, q, sentAt, receivedAt);
  }

  /** The greeting is a payload the joining peer's handler takes in: it
      carries the sender's non-empty session id, which is not the joining
      peer's own, and a string name. */
  lemma GreetingRegisters(l: Link, target: Option<string>, sessionId: string, other: string,
                          playerName: string, b: Physics.Body, q: Quat, wallNow: real)
    requires l.hasStateSender && sessionId != "" && other != sessionId
    ensures var s := BroadcastState(l, target, sessionId, playerName, b, q, wallNow);
            && s.Some? && s.value.payload.id == Some(sessionId)
            && Peers.Accepted(Some(s.value.payload), other)
  {
  }

  /** Everything the client keeps between frames. */
  datatype Client = Client(
    ball: Physics.Body, quat: Quat, mode: Paint.PaintMode,
    remotes: Peers.Registry, link: Link,
    netTick: real, paintTick: real)

  /** What one frame produces besides the next client: the dot painted under
      the local ball, and the paint and state messages sent. */
  datatype Effects = Effects(
    localDot: Option<Paint.Dot>,
    paintSent: Option<Paint.PaintPayload>,
    stateSent: Option<StateSend>)

  /** Where the environment of one frame comes in: the held keys, the clock
      delta, both clocks, the rolled orientation (rolling is not modelled) and
      the remote smoothing factor `1 - exp(-18 dt)`. */
  datatype FrameInput = FrameInput(
    keys: Physics.Keys, frameDt: real, wallNow: real, monoNow: real,
    rolled: Quat, alpha: real)

  /** One `animate` call: the physics step, the remote pass, the local paint
      dot, then the paint throttle and the state throttle, both fed the
      clamped frame time. */
  function Frame(c: Client, inp: FrameInput, sessionId: string, playerName: string,
                 sqrt: real -> real): (r: (Client, Effects))
    requires IsSqrt(sqrt)
    ensures Physics.InArena(r.0.ball)
    ensures r.1.localDot.Some? && r.1.localDot.value.mode == c.mode
    ensures r.1.paintSent.Some? <==> c.link.hasPaintSender && c.paintTick + Physics.ClampDt(inp.frameDt) > SendInterval
    ensures r.1.stateSent.Some? <==> c.link.hasStateSender && c.netTick + Physics.ClampDt(inp.frameDt) > SendInterval
    ensures r.1.paintSent.Some? ==> r.1.paintSent.value == Paint.EncodePaint(r.0.ball.pos.x, r.0.ball.pos.z, c.mode)
    ensures r.1.stateSent.Some? ==>
              r.1.stateSent.value == StateSend(Protocol.Encode(sessionId, playerName, r.0.ball, inp.rolled, inp.wallNow), None)
    ensures r.0.link == c.link && r.0.mode == c.mode && r.0.quat == inp.rolled
    ensures r.0.ball == Physics.Step(c.ball, inp.keys, inp.frameDt, sqrt)
    ensures r.1.localDot == Paint.PaintAtWorld(r.0.ball.pos.x, r.0.ball.pos.z, c.mode)
    ensures r.0.remotes == Peers.Tick(c.remotes, inp.wallNow, inp.monoNow, inp.alpha)
    ensures forall k :: k in r.0.remotes <==> k in c.remotes && inp.monoNow - c.remotes[k].lastSeen <= Peers.StaleAfter
    ensures forall k :: k in r.0.remotes ==> r.0.remotes[k] == c.remotes[k].(shown := r.0.remotes[k].shown)
    ensures r.0.paintTick == if r.1.paintSent.Some? then 0.0 else c.paintTick + Physics.ClampDt(inp.frameDt)
    ensures r.0.netTick == if r.1.stateSent.Some? then 0.0 else c.netTick + Physics.ClampDt(inp.frameDt)
  {
    var dt := Physics.ClampDt(inp.frameDt);
    var ball := Physics.Step(c.ball, inp.keys, inp.frameDt, sqrt);
    var remotes := Peers.Tick(c.remotes, inp.wallNow, inp.monoNow, inp.alpha);
    Paint.BallPaintsOnFloor(ball, c.mode);
    var dot := Paint.PaintAtWorld(ball.pos.x, ball.pos.z, c.mode);
    var pg := Throttle(c.paintTick, dt, c.link.hasPaintSender);
    var paintSent := if pg.fire then Some(Paint.EncodePaint(ball.pos.x, ball.pos.z, c.mode)) else None;
    var ng := Throttle(c.netTick, dt, c.link.hasStateSender);
    var stateSent := if ng.fire then BroadcastState(c.link, None, sessionId, playerName, ball, inp.rolled, inp.wallNow) else None;
    (Client(ball, inp.rolled, c.mode, remotes, c.link, ng.acc, pg.acc), Effects(dot, paintSent, stateSent))
  }

  /** A peer receiving this frame's paint message paints the same dot the
      sender painted locally. */
  lemma FramePaintEchoes(c: Client, inp: FrameInput, sessionId: string, playerName: string,
                         sqrt: real -> real)
    requires IsSqrt(sqrt)
    ensures var (_, e) := Frame(c, inp, sessionId, playerName, sqrt);
            e.paintSent.Some? ==> Paint.ReceivePaint(e.paintSent) == e.localDot
  {
    var (c', e) := Frame(c, inp, sessionId, playerName, sqrt);
    if e.paintSent.Some? {
      Paint.ReceiveEncodePaint(c'.ball.pos.x, c'.ball.pos.z, c.mode);
    }
  }

  /** Two frames in a row never both send the state. */
  lemma FramesNotBackToBack(c: Client, inp1: FrameInput, inp2: FrameInput, sessionId: string,
                            playerName: string, sqrt: real -> real)
    requires IsSqrt(sqrt)
    ensures var (c1, e1) := Frame(c, inp1, sessionId, playerName, sqrt);
            var (_, e2) := Frame(c1, inp2, sessionId, playerName, sqrt);
            !(e1.stateSent.Some? && e2.stateSent.Some?)
  {
    var dt1 := Physics.ClampDt(inp1.frameDt);
    var dt2 := Physics.ClampDt(inp2.frameDt);
    if Throttle(c.netTick, dt1, c.link.hasStateSender).fire {
      NoBackToBack(c.netTick, dt1, dt2, c.link.hasStateSender);
    }
  }

  /** A frame never sends without the matching sender, so a client whose
      connection failed before the actions existed stays silent. */
  lemma OfflineFrameSilent(c: Client, inp: FrameInput, sessionId: string, playerName: string,
                           sqrt: real -> real)
    requires IsSqrt(sqrt)
    requires c.link == Connect(FailedBeforeSenders)
    ensures var (_, e) := Frame(c, inp, sessionId, playerName, sqrt);
            e.paintSent.None? && e.stateSent.None?
  {
  }
}

=== FILE: vectors.dfy ===
/** Value-type vectors and quaternions over the reals (floating point is
    idealised as exact arithmetic), with the few operations the client uses. */
module Vectors {

  datatype Vec3 = Vec3(x: real, y: real, z: real)

  datatype Quat = Quat(x: real, y: real, z: real, w: real)

  const Origin: Vec3 := Vec3(0.0, 0.0, 0.0)
  const IdentityQuat: Quat := Quat(0.0, 0.0, 0.0, 1.0)

  function Abs(x: real): real {
    if x < 0.0 then -x else x
  }

  function Min(a: real, b: real): real {
    if a <= b then a else b
  }

  function Max(a: real, b: real): real {
    if a >= b then a else b
  }

  /** `a.addScaledVector(v, k)`. */
  function AddScaled(a: Vec3, v: Vec3, k: real): Vec3 {
    Vec3(a.x + v.x * k, a.y + v.y * k, a.z + v.z * k)
  }

  /** `a.lerp(b, t)`: each component moves the fraction `t` of the way to `b`. */
  function Lerp(a: Vec3, b: Vec3, t: real): Vec3 {
    Vec3(a.x + (b.x - a.x) * t, a.y + (b.y - a.y) * t, a.z + (b.z - a.z) * t)
  }

  function QuatNormSq(q: Quat): real {
    q.x * q.x + q.y * q.y + q.z * q.z + q.w * q.w
  }

  /** `x` lies between `a` and `b`, whichever is larger. */
  predicate Between(a: real, x: real, b: real) {
    (a <= x <= b) || (b <= x <= a)
  }

  /** `sqrt(x)` is the non-negative square root of `x`. */
  ghost predicate RootAt(sqrt: real -> real, x: real) {
    0.0 <= sqrt(x) && sqrt(x) * sqrt(x) == x
  }

  /** The square root the model is given in place of `Math.sqrt`. A proof
      that needs the root of a particular value asks for `RootAt` there. */
  ghost predicate IsSqrt(sqrt: real -> real) {
    forall x {:trigger RootAt(sqrt, x)} :: 0.0 <= x ==> RootAt(sqrt, x)
  }

  /** One interpolation step with a factor in [0, 1] never overshoots, and it
      leaves the fraction `1 - t` of each component's gap to the target. */
  lemma LerpApproaches(a: Vec3, b: Vec3, t: real)
    requires 0.0 <= t <= 1.0
    ensures Between(a.x, Lerp(a, b, t).x, b.x)
    ensures Between(a.y, Lerp(a, b, t).y, b.y)
    ensures Between(a.z, Lerp(a, b, t).z, b.z)
    ensures b.x - Lerp(a, b, t).x == (1.0 - t) * (b.x - a.x)
    ensures b.y - Lerp(a, b, t).y == (1.0 - t) * (b.y - a.y)
    ensures b.z - Lerp(a, b, t).z == (1.0 - t) * (b.z - a.z)
  {
    LerpComponent(a.x, b.x, t, (b.x - a.x) * t);
    LerpComponent(a.y, b.y, t, (b.y - a.y) * t);
    LerpComponent(a.z, b.z, t, (b.z - a.z) * t);
  }

  /** One component: `p` is the step `(b - a) t`. */
  lemma LerpComponent(a: real, b: real, t: real, p: real)
    requires 0.0 <= t <= 1.0 && p == (b - a) * t
    ensures Between(a, a + p, b)
  {
    if a <= b {
      ScaleUnit(b - a, t, p);
    } else {
      ScaleUnitNegative(b - a, t, p);
    }
  }

  /** Scaling a non-negative number by a factor in [0, 1] keeps it between
      0 and itself. */
  lemma ScaleUnit(x: real, t: real, p: real)
    requires 0.0 <= x && 0.0 <= t <= 1.0 && p == x * t
    ensures 0.0 <= p <= x
  {
  }

  /** Scaling a non-positive number by a factor in [0, 1] keeps it between
      itself and 0. */
  lemma ScaleUnitNegative(x: real, t: real, p: real)
    requires x <= 0.0 && 0.0 <= t <= 1.0 && p == x * t
    ensures x <= p <= 0.0
  {
  }
}
